=== FILE: README.md ===
# Hyperspectral capture and spectrum viewers — a Dafny model

The system drives a Thorlabs Kurios tunable filter and a camera to take
hyperspectral image stacks: a Tk form (`app.py`) takes a minimum and maximum
wavelength, an exposure time and a file name, validates them, and has a
synchroniser capture one frame per integer wavelength from the minimum to the
maximum into a multi-page TIFF whose name records the range and the start
time. Three viewers read such a stack back and plot a spectrum against
`range(wavelength_min, wavelength_max + 1)`: one pixel per slide
(`show_spectra.py`, `ShowSpectra.py`) or the mean of a rectangular region per
slide (`show_spectra_area.py`). The Kurios example script
(`test/KURIOS_COMMAND_LIB_EXAMPLE.py`) reads the head and controller serial
numbers out of the device ID string, warns about a mismatched pair, and
decodes a bit-mask character into the names of the optical head's modes.

The model is in eight modules:

- `Python` (`python.dfy`): the runtime behaviour the scripts depend on. This
  covers the exceptions they raise, results that either return or raise,
  negative subscripts, slices that clamp their bounds, and `range`.
- `Decimal` (`decimal.dfy`): ASCII digit strings. It gives their value as
  `int()` reads them, `str()` of a natural, `%02d`, and the run of digits at
  the end of a string.
- `ImageStack` (`image_stack.dfy`): frames as rectangular integer matrices,
  stacks of frames, the wavelength axis, matplotlib's `plot(x, y)` pairing,
  and the slide-by-slide list builder shared by all three viewers.
- `PointSpectrum` (`point_spectrum.dfy`): the two point-mode viewers. Both read
  `stack[slide][x][y]`.
- `AreaSpectrum` (`area_spectrum.dfy`): the area-mode viewer. It has the crop
  exactly as written, the numpy mean with NaN for an empty crop, and the
  corrected crop that the area spectrum uses (see Findings).
- `CaptureRun` (`capture_run.dfy`): the form's field validators, the order
  check and `run_script`'s decision. It also builds the wavelength list and
  the output file name, and a parser that reads the name back.
- `KuriosId` (`kurios_id.dfy`): the `SN`/`CN` extraction, the mismatch warning
  and the bit-mask decoder.
- `Workflow` (`workflow.dfy`): how the parts connect. The wavelength list the
  form requests is the axis the viewers draw. A captured stack plots each slide
  at the wavelength it was taken at. A 1×1 area spectrum equals the point
  spectrum.

Python's `float()` and `int()` on text are not re-implemented. `CaptureRun`
takes them as a parameter (`NumberSyntax`). Lemmas that need facts about them
assume only `Coherent`:

- the empty text parses as neither;
- anything `int()` accepts, `float()` accepts too;
- a run of at most 4300 ASCII digits (CPython's default `int()` limit,
  `sys.int_info.default_max_str_digits`) reads as its decimal value.

numpy's mean is modelled as an exact rational mean. `None` stands for NaN.

Not every malformed form field is caught and shown inline; the model follows
the code:

- `float(exposure)` at `app.py:167` runs before any validation, so a blank or
  malformed exposure raises ValueError.
- `validate_integer` discards the result of its `% 1 == 0` test, so it accepts
  exactly what `validate_float` accepts.
- A field that passes that check but is not an `int()` literal (blank, `1.5`)
  makes `min_smaller_max` raise ValueError at `app.py:291`.

## Model

| member | source | states |
|---|---|---|
| Python.Index | show_spectra.py:52 | A subscript succeeds exactly for `-n <= i < n`. A negative index counts from the end. Anything else raises IndexError. |
| Python.Slice | show_spectra_area.py:64 | A slice never raises. Its bounds are clamped into the sequence, element `k` is element `lo + k` of the source, and reversed bounds give the empty slice. |
| Python.Range | show_spectra.py:78 | `range(lo, hi)` has `max(hi - lo, 0)` elements, and element `k` is `lo + k`. |
| Python.RangeStrictlyAscending | show_spectra.py:78 | `range(lo, hi)` is strictly ascending and contains exactly the integers in `[lo, hi)`. |
| Decimal.Value | app.py:291 | `int()` of a digit string is zero exactly when every digit is `0`. |
| Decimal.ShowOfValue | app.py:291 | A digit string with no leading zero is exactly what `str()` prints for its value: `int()` and `str()` are inverse on canonical spellings. |
| Decimal.Show | app.py:187-188 | `str(n)` is a digit string with no leading zero that `int()` reads back as `n`. |
| Decimal.Pad2 | app.py:188 | `%02d` of a value below 100 is two digits that read back as the value. |
| Decimal.LeadingZero | test/KURIOS_COMMAND_LIB_EXAMPLE.py:30 | `int()` of a digit string ignores a leading zero. |
| Decimal.DigitSuffixAfterSeparator | app.py:191 | Digits written after a non-digit are exactly the digit run at the end of the result. |
| ImageStack.Axis | show_spectra.py:78 | The x-axis runs from `wavelength_min` to `wavelength_max` inclusive, one nanometre per point, or is empty when the bounds are reversed. |
| ImageStack.Plot | show_spectra.py:81 | `plot(xs, ys)` raises ValueError unless the lengths agree, and otherwise pairs `xs[i]` with `ys[i]`. |
| ImageStack.BuildArray | show_spectra.py:64-71 | Builds one value per slide in slide order, or raises the exception of the first slide that fails. All earlier slides succeeded. |
| PointSpectrum.PixelValue | show_spectra.py:40-54 | `stack[slide][x][y]` with Python's index rules. It succeeds for non-negative coordinates exactly when the pixel exists, and otherwise raises IndexError. |
| PointSpectrum.Values | show_spectra.py:56-71 | The list has one entry per slide and is that slide's pixel value. It succeeds exactly when every slide has the pixel. |
| PointSpectrum.Spectrum | show_spectra.py:73-81 | It succeeds exactly when every slide has the pixel and the axis has one wavelength per slide. Point `i` is `(wavelength_min + i, pixel of slide i)`. Otherwise it raises IndexError or ValueError. |
| PointSpectrum.ValuesAreRawPixels | ShowSpectra.py:25-40 | When every slide has the pixel, the values are exactly the raw pixels, slide by slide, with no transformation. |
| PointSpectrum.MissingPixelRaises | show_spectra.py:52 | A pixel missing from any one slide makes the whole list raise IndexError. |
| PointSpectrum.AxisLengthMismatchRaises | ShowSpectra.py:43-45 | A wavelength range whose length differs from the slide count raises ValueError. |
| PointSpectrum.SpectrumSeesOnlyThePixel | ShowSpectra.py:28 | Two stacks that agree on pixel `(x, y)` of every slide give the same spectrum. |
| PointSpectrum.FiveSlideSpectrum | show_spectra.py:73-81 | Five slides at 500..504 nm reading 1..5 at the pixel give `(500, 1) .. (504, 5)`. |
| AreaSpectrum.CropAsWritten | show_spectra_area.py:57-66 | The crop has as many rows and columns as the two clamped slices keep, and pixel `(i, j)` is the frame's pixel at the clamped top-left corner plus `(i, j)`. A row bound below the top-left row gives no rows, and a column bound below the top-left column gives empty rows. |
| AreaSpectrum.Mean | show_spectra_area.py:29 | The mean times the pixel count is the pixel sum. |
| AreaSpectrum.NumpyMean | show_spectra_area.py:29 | `np.mean` is NaN exactly for a crop with no pixels, and otherwise it is the crop's mean. |
| AreaSpectrum.AreaValueAsWritten | show_spectra_area.py:26-31 | The viewer's per-slide value is defined for every index that Python accepts, even when the crop is empty. |
| AreaSpectrum.CropShape | show_spectra_area.py:64 | For a valid region, the slice keeps rows `tl.row ..= min(br.row, last row)` and the matching columns, each pixel taken from its place in the frame. |
| AreaSpectrum.Crop | show_spectra_area.py:57-66 | The corrected crop. It succeeds exactly for a valid region (ordered, non-negative, top-left inside the frame) and has the region's shape and pixels. Otherwise it raises ValueError. |
| AreaSpectrum.CropMeanIsRegionMean | show_spectra_area.py:26-31 | Averaging the crop of a valid region gives the box sum of the frame divided by the box's area. |
| AreaSpectrum.AreaValue | show_spectra_area.py:26-31 | Corrected: a slide's value exists exactly when the slide exists and the region is valid on it, and it is the region's mean. |
| AreaSpectrum.Values | show_spectra_area.py:33-41 | Corrected: there is one region mean per slide, in slide order. It succeeds exactly when the region is valid on every slide. |
| AreaSpectrum.Spectrum | show_spectra_area.py:43-47 | Corrected: it succeeds exactly when the region is valid on every slide and the axis has one wavelength per slide. It pairs `wavelength_min + i` with slide `i`'s mean. |
| AreaSpectrum.SinglePixelRegion | show_spectra_area.py:57-66 | Coinciding corners crop the 1×1 block of that pixel, and the slide's value is the pixel itself. |
| AreaSpectrum.ClampedCorner | show_spectra_area.py:64 | A bottom-right corner past the frame's edge crops the same pixels as that corner clamped to the edge. |
| AreaSpectrum.MeanWithinPixelRange | show_spectra_area.py:29 | The mean of a region lies between its smallest and largest pixel. |
| AreaSpectrum.InvertedCornersGiveNaN | show_spectra_area.py:64 | When a non-negative bottom-right coordinate lies before the matching top-left one, the code as written returns NaN without raising. The corrected crop raises ValueError. |
| AreaSpectrum.AsWrittenAgreesOnValidRegion | show_spectra_area.py:26-31 | On a valid region the viewer's own value is the region mean that the corrected `AreaValue` returns, so the correction changes only the rejected regions. |
| AreaSpectrum.OutsideFrameGivesNaN | show_spectra_area.py:64 | With a non-negative top-left corner below or right of the frame, the code as written returns NaN without raising. The corrected crop raises ValueError. |
| AreaSpectrum.NegativeCornerWraps | show_spectra_area.py:64 | As written, a negative top-left corner counts from the far edge and crops what the wrapped corner crops. The corrected crop raises ValueError. |
| AreaSpectrum.NegativeCornerExample | show_spectra_area.py:64 | On a 3×3 frame with corners (-1, -1) and (5, 5), the code as written averages the bottom-right pixel alone, giving 9, and the corrected crop raises ValueError. |
| AreaSpectrum.NegativeBottomRightWraps | show_spectra_area.py:64 | As written, a bottom-right coordinate from `-n - 1` to `-2` counts from the far edge and crops what the wrapped corner crops. The corrected crop raises ValueError. |
| AreaSpectrum.StopAtZeroGivesNaN | show_spectra_area.py:64 | As written, a bottom-right coordinate of `-1`, or one below `-n`, makes the slice stop at 0 rather than wrap, so the crop is empty and the value is NaN. The corrected crop raises ValueError. |
| AreaSpectrum.NegativeBottomRightExample | show_spectra_area.py:64 | On a 3×3 frame with corners (0, 0) and (-2, -2), the code as written averages the top-left 2×2 block, giving 3, and the corrected crop raises ValueError. |
| AreaSpectrum.InvertedCornersExample | show_spectra_area.py:64 | On `[[1, 2], [3, 4]]` with corners (1, 1) and (0, 0), the code as written gives NaN and the corrected crop raises ValueError. |
| CaptureRun.ValidateFloat | app.py:254-271 | The float check accepts exactly the empty text and the texts `float()` parses. |
| CaptureRun.ValidateInteger | app.py:235-251 | The integer check accepts exactly what the float check accepts, because the `% 1 == 0` result is discarded. |
| CaptureRun.IntegerCheckAcceptsFractions | app.py:245-251 | A text such as `1.5`, which `float()` reads and `int()` rejects, passes the integer check. |
| CaptureRun.ValidateEntry | app.py:207-231 | The verdict is the validator's. The error label is cleared exactly on success and shows the message on failure. |
| CaptureRun.MinSmallerMax | app.py:273-296 | Raises ValueError exactly when either text is not an `int()` literal. Otherwise it accepts exactly when `int(min) < int(max)`. The label is cleared on acceptance and shows the given message on rejection. |
| CaptureRun.EqualBoundsRejected | app.py:291-296 | Equal bounds are rejected with the order message. |
| CaptureRun.AcceptedButNotIntegerRaises | app.py:288-291 | A minimum that passes the integer check but is not an `int()` literal makes the order check raise ValueError. |
| CaptureRun.CaptureWavelengths | app.py:184 | The requested wavelengths are `lo, lo+1, ..., hi`: strictly ascending, with first `lo` and last `hi`. |
| CaptureRun.Stamp | app.py:187-188 | The `%Y-%m-%d_%H-%M-%S` stamp of a four-digit year is 19 characters long. |
| CaptureRun.Filename | app.py:191 | The file name starts with the user's name followed by `_wl_` and ends in `.tif`. With a four-digit year it is 31 characters longer than the name and the two wavelength texts together. Its full layout is pinned down by `FilenameRoundTrip`. |
| CaptureRun.StampRoundTrip | app.py:187-188 | The stamp parses back to the moment it was printed from. |
| CaptureRun.RangeRoundTrip | app.py:191 | `{name}_wl_{min}-{max}` splits back into the name and both digit texts, whatever the name contains. |
| CaptureRun.FilenameRoundTrip | app.py:191 | A file name built from digit-only bounds parses back to the user's name, both wavelength texts and the start time. |
| CaptureRun.RunScript | app.py:158-195 | Raises ValueError exactly when the exposure does not parse, or when both bounds pass their checks but one is not an `int()` literal. A capture starts exactly when all checks and the order test pass. It then requests `lo ..= hi` (at least two wavelengths) under the file name `{name}_wl_{min}-{max}nm_{stamp}.tif`, with every label cleared. A field that fails its check shows its own message. When both bounds pass but the run is refused, the maximum's label shows the order message. The maximum's label is empty exactly when the maximum passes its check and either the minimum fails its own check (so the order test never runs) or the capture starts. |
| CaptureRun.StartableRun | app.py:176-191 | A form that passes every check and the order test, with a readable exposure, clears all three labels and requests exactly `lo ..= hi` under its file name. |
| CaptureRun.ExposureCheckNeverFails | app.py:167-174 | Whenever `run_script` returns, the exposure error label is empty. |
| CaptureRun.BlankMinimumRaises | app.py:171-177 | A blank minimum is not reported on the form. It makes `run_script` raise ValueError. |
| CaptureRun.DigitBoundsStartCapture | app.py:176-191 | Digit-only bounds of at most 4300 digits with `lo < hi` and a readable exposure start a capture of exactly `lo ..= hi`. The file name reads back as the form's name, texts and start time. |
| KuriosId.DigitRun | test/KURIOS_COMMAND_LIB_EXAMPLE.py:70 | `\d{1,10}` consumes the digits that follow, as many as there are, up to ten. |
| KuriosId.DigitRunUnique | test/KURIOS_COMMAND_LIB_EXAMPLE.py:70 | There is only one such maximal run at a position. |
| KuriosId.FindTag | test/KURIOS_COMMAND_LIB_EXAMPLE.py:71 | The scan finds the leftmost position where the tag is followed by a digit, or reports that there is none. |
| KuriosId.FirstTagged | test/KURIOS_COMMAND_LIB_EXAMPLE.py:70-74 | `findall(...)[0]` raises IndexError exactly when the tag is never followed by a digit. Otherwise it is 1 to 10 digits. |
| KuriosId.FirstTaggedIsLeftmostRun | test/KURIOS_COMMAND_LIB_EXAMPLE.py:70-71 | The result is `d` exactly when `d` is the maximal digit run after the leftmost match. |
| KuriosId.DeviceSNCN | test/KURIOS_COMMAND_LIB_EXAMPLE.py:68-74 | Returns the first `SN` serial and the first `CN` serial. If either is missing it raises IndexError. |
| KuriosId.SerialPairExample | test/KURIOS_COMMAND_LIB_EXAMPLE.py:68-74 | `SN12-CN345` yields `12` and `345`. |
| KuriosId.LongSerialExample | test/KURIOS_COMMAND_LIB_EXAMPLE.py:70 | A serial longer than ten digits is cut after ten. |
| KuriosId.MissingControllerExample | test/KURIOS_COMMAND_LIB_EXAMPLE.py:72-74 | An ID without `CN` raises IndexError. |
| KuriosId.ExampleSerials | test/KURIOS_COMMAND_LIB_EXAMPLE.py:68-74 | Every ID of the form `SN<1–10 digits>-CN<1–10 digits>` parses to its two digit runs. |
| KuriosId.ParseEach | test/KURIOS_COMMAND_LIB_EXAMPLE.py:27-28 | Every ID is parsed in order. It succeeds exactly when all parse, and otherwise raises the first failure's exception. |
| KuriosId.MismatchWarning | test/KURIOS_COMMAND_LIB_EXAMPLE.py:25-31 | Succeeds exactly for a non-empty list of parsable IDs; with no IDs it raises NameError. It warns exactly when the last ID's head serial is at least 212254 and differs numerically from its controller serial. |
| KuriosId.LastIdDecides | test/KURIOS_COMMAND_LIB_EXAMPLE.py:27-30 | Two parsable lists that end in the same ID get the same verdict. |
| KuriosId.SingleIdWarning | test/KURIOS_COMMAND_LIB_EXAMPLE.py:30 | For one well-formed ID, the warning is the numeric comparison of its serials. |
| KuriosId.LeadingZeroDoesNotWarn | test/KURIOS_COMMAND_LIB_EXAMPLE.py:30 | A controller serial that is the head serial with a leading zero does not warn. |
| KuriosId.NoIdExample | test/KURIOS_COMMAND_LIB_EXAMPLE.py:26-30 | An empty ID list raises NameError. |
| KuriosId.BinaryDigits | test/KURIOS_COMMAND_LIB_EXAMPLE.py:80-86 | `bin(n)` after its `0b` prefix is a non-empty string of `0`s and `1`s. It starts with `1` exactly when `n > 0`, and it is `0` for zero. Which digit is which bit is pinned down by `ReversedBinaryIsBits`. |
| KuriosId.Reverse | test/KURIOS_COMMAND_LIB_EXAMPLE.py:87 | `s[::-1]` holds `s[|s|-1-k]` at position `k`. |
| KuriosId.ReversedBinaryIsBits | test/KURIOS_COMMAND_LIB_EXAMPLE.py:80-87 | Position `t` of the reversed `bin()` digits is '1' exactly when bit `t` is set. No bit beyond the string is set. |
| KuriosId.SelectedBits | test/KURIOS_COMMAND_LIB_EXAMPLE.py:89-94 | Every selected position is below the bound and has a name. |
| KuriosId.SelectedBitsMembers | test/KURIOS_COMMAND_LIB_EXAMPLE.py:89-94 | A position is selected exactly when it is below the bound, has a name and its bit is set. Positions come in strictly ascending order. |
| KuriosId.ScanPrefix | test/KURIOS_COMMAND_LIB_EXAMPLE.py:90-93 | After scanning `t` positions, the loop holds the names of the selected positions below `t`. |
| KuriosId.OpticalHeadTypeNames | test/KURIOS_COMMAND_LIB_EXAMPLE.py:77-94 | Raises a bare Exception exactly when the input is not one character. Otherwise it returns the names of the selected positions of its code, in ascending order. |
| KuriosId.BandwidthExample | test/KURIOS_COMMAND_LIB_EXAMPLE.py:59-64 | Code 10 with the bandwidth names and the default bound 4 decodes to `WIDE`, `NARROW`. |
| KuriosId.ZeroCodeNamesNothing | test/KURIOS_COMMAND_LIB_EXAMPLE.py:77-94 | Code 0 names nothing, whatever the names and the bound. |
| Workflow.WavelengthListIsAxis | app.py:184 | The list the form requests equals the viewers' x-axis for the same bounds. |
| Workflow.CapturedStackPlotsAtItsWavelengths | app.py:184-191 | A stack with one slide per requested wavelength, viewed in point mode with the form's bounds, plots slide `i` at the `i`-th requested wavelength. |
| Workflow.StackPlotsAtWavelengths | show_spectra.py:73-81 | A stack with one slide per wavelength of `lo ..= hi` gives a point spectrum that pairs each wavelength with its slide's raw pixel. |
| Workflow.SinglePixelAreaIsPoint | show_spectra_area.py:26-31 | For every stack, a 1×1 area spectrum fails exactly when the point spectrum fails, and otherwise equals it point by point. |

## Left out

- TIFF reading (`tifffile`) is not modelled. A stack is given as a sequence of rectangular frames. For a single-page file, `imread(...).shape[0]` is the row count rather than a slide count; that case is not modelled.
- The Tk widgets, the output text box and the error labels' rendering are not modelled. A label is modelled as the text it is set to.
- The hardware layer is not modelled: `KuriosOpen` and the other device calls, the camera, `CameraFilterSyncronizer` and its `gatherImages`/`cleanup`. The synchroniser is modelled only as the request it receives.
- The modules `image_normalizer.py`, `automization.py`, `calibrator.py`, `power_calibrator.py` and the other viewers are not part of this model.
- CaptureRun.RunScript: the exposure conversion `int(float(text) * 1e6)` at `app.py:167` and `app.py:185` is floating-point arithmetic and is not modelled. Exposures such as `nan` or `inf`, which `float()` accepts but `int()` then rejects, are treated as accepted.
- CaptureRun.NumberSyntax: the grammar of Python's `float()` and `int()` is not modelled. It is a parameter with the coherence facts listed above. `Coherent` fixes `int()` only for digit runs of at most 4300 characters. A longer run passes `validate_integer`, because `float()` reads it, but `int()` raises ValueError on it in `min_smaller_max`. Lemmas about digit bounds therefore require at most 4300 digits.
- KuriosId.DigitRun: `\d` is taken as the ASCII digits. Python's `re` also matches other Unicode decimal digits.
- AreaSpectrum.Crop: it also rejects a negative corner. The viewer's slicing counts a negative top-left coordinate, or a bottom-right coordinate of -2 or below, from the far edge of the frame (`NegativeCornerWraps`, `NegativeBottomRightWraps`). A bottom-right coordinate of -1, or one below `-n`, makes the slice stop at 0, which gives an empty crop and NaN (`StopAtZeroGivesNaN`). A region given that way is rejected rather than wrapped, since the viewer's corners are pixel positions.
- AreaSpectrum.Mean: the mean is exact. numpy's floating-point rounding of the sum and the division is not modelled.
- CaptureRun.RunScript: the modelled capture request is the intended hand-off to the synchroniser, not what the code can do. `app.py:59` imports `CameraFilterSyncronizer`, but `automization.py:24` defines `CameraFilterSynronizer`, so the import fails. Even with the right name, the constructor (`automization.py:26`) takes `tag_bitdepth` and `tag_exposure` rather than `exposure=` (`app.py:185`). `gatherImages` (`automization.py:76`) also has no `is_calib` parameter (`app.py:193`).
- CaptureRun.RunScript: when `min_smaller_max` raises, the labels that `validate_entry` had already set are not part of the outcome. Only the exception is modelled.
- CaptureRun.StampRoundTrip: years below 1000, which `%Y` prints with fewer than four digits on some platforms, are excluded.
- The matplotlib drawing calls (ticks, grid, legend, labels, canvas) and the `__main__` blocks of the viewers are not modelled.
- The rest of `CommonFunc` is not modelled: status, temperature and specification queries and their printing. They are device I/O.
- KuriosId.OpticalHeadTypeNames: the argument is taken as a text. A `bytes` or `bytearray` of length 1, which `ord()` also accepts, stands for the one-character text with the same code. Arguments of other types, on which `ord()` raises TypeError, are not modelled. The device library's actual value type is not visible.

## Findings

| source | as written | input that shows it | evidently intended | confidence | as-written member | corrected member |
|---|---|---|---|---|---|---|
| show_spectra_area.py:64 | The crop slices `[tl_row : br_row + 1, tl_col : br_col + 1]` with no check. A non-negative bottom-right coordinate before the top-left one, a top-left corner outside the frame, or a bottom-right coordinate of -1 or below `-n` gives an empty crop, and `np.mean` of it is NaN with no error (`InvertedCornersGiveNaN`, `OutsideFrameGivesNaN`, `StopAtZeroGivesNaN`). A negative top-left coordinate, or a bottom-right coordinate of -2 or below, silently wraps to the far edge. For example, corners (-1, -1) and (5, 5) on a 3×3 frame average only the bottom-right pixel (`NegativeCornerExample`), and corners (0, 0) and (-2, -2) average the top-left 2×2 block (`NegativeBottomRightExample`). | frame `[[1, 2], [3, 4]]`, top-left (1, 1), bottom-right (0, 0) | reject a region that is inverted, negative or outside the frame instead of plotting NaN | high, not executed | AreaSpectrum.InvertedCornersGiveNaN | AreaSpectrum.Crop |

=== FILE: area_spectrum.dfy ===
/** Area mode of the spectrum viewer: every slide is cropped to the
    inclusive rectangle spanned by two corners and reduced to the mean of
    the crop; the means are plotted against the wavelength axis.

    The viewer's own slicing (`CropAsWritten`) accepts corners in the
    wrong order and then averages an empty crop, which numpy reports as
    NaN, and counts most negative corners from the far edge. The spectrum here is built on `Crop`, which rejects such a region
    with ValueError instead. */
module AreaSpectrum {
  import opened Python
  import opened ImageStack

  /** A pixel position, `(row, column)`. */
  datatype Corner = Corner(row: int, col: int)

  /** `matrix[tl_row : br_row + 1, tl_col : br_col + 1]`, exactly as the
      viewer slices: it never raises, clamps a corner past the edge, and
      yields no pixels at all when a non-negative bottom-right coordinate
      lies before the top-left one. */
  function CropAsWritten(m: Frame, topLeft: Corner, bottomRight: Corner): (c: Frame)
    ensures |c| == Max(SliceBound(|m|, bottomRight.row + 1) - SliceBound(|m|, topLeft.row), 0)
    ensures forall i :: 0 <= i < |c| ==>
              |c[i]| == Max(SliceBound(Cols(m), bottomRight.col + 1) - SliceBound(Cols(m), topLeft.col), 0)
    ensures forall i, j :: 0 <= i < |c| && 0 <= j < |c[i]| ==>
              SliceBound(|m|, topLeft.row) + i < |m|
              && SliceBound(Cols(m), topLeft.col) + j < |m[SliceBound(|m|, topLeft.row) + i]|
              && c[i][j] == m[SliceBound(|m|, topLeft.row) + i][SliceBound(Cols(m), topLeft.col) + j]
    ensures 0 <= bottomRight.row < topLeft.row ==> c == []
    ensures 0 <= bottomRight.col < topLeft.col ==> forall i :: 0 <= i < |c| ==> c[i] == []
  {
    var rows := Slice(m, topLeft.row, bottomRight.row + 1);
    var c := seq(|rows|, i requires 0 <= i < |rows| => Slice(rows[i], topLeft.col, bottomRight.col + 1));
    forall i | 0 <= i < |c|
      ensures |rows[i]| == Cols(m)
    {
      assert rows[i] == m[SliceBound(|m|, topLeft.row) + i];
    }
    c
  }

  /** The pixels of a matrix in row-major order. */
  function Pixels(c: seq<seq<int>>): seq<int> {
    if c == [] then [] else Pixels(c[..|c| - 1]) + c[|c| - 1]
  }

  function Sum(s: seq<int>): int {
    if s == [] then 0 else Sum(s[..|s| - 1]) + s[|s| - 1]
  }

  /** The exact arithmetic mean of a non-empty crop. */
  function Mean(c: seq<seq<int>>): (r: real)
    requires |Pixels(c)| > 0
    ensures r * |Pixels(c)| as real == Sum(Pixels(c)) as real
  {
    Sum(Pixels(c)) as real / |Pixels(c)| as real
  }

  /** `np.mean(crop)`: `None` stands for the NaN numpy returns, with only a
      warning, for a crop without pixels. */
  function NumpyMean(c: seq<seq<int>>): (r: Option<real>)
    ensures r.None? <==> |Pixels(c)| == 0
    ensures r.Some? ==> r.value == Mean(c)
  {
    if |Pixels(c)| == 0 then None else Some(Mean(c))
  }

  /** The per-slide value exactly as the viewer computes it. */
  function AreaValueAsWritten(stack: Stack, slide: int, topLeft: Corner, bottomRight: Corner)
    : (r: Result<Option<real>>)
    ensures r.Ok? <==> -(|stack| as int) <= slide < |stack|
  {
    var s :- Index(|stack|, slide);
    Ok(NumpyMean(CropAsWritten(stack[s], topLeft, bottomRight)))
  }

  /** A region the viewer can average: corners in order, not negative, and
      the top-left corner inside the frame. The bottom-right corner may lie
      past the edge; the crop then stops at the edge. */
  predicate ValidRegion(m: Frame, topLeft: Corner, bottomRight: Corner) {
    && 0 <= topLeft.row <= bottomRight.row
    && 0 <= topLeft.col <= bottomRight.col
    && topLeft.row < Rows(m)
    && topLeft.col < Cols(m)
  }

  /** The last row and column the crop reaches: the corner, clamped to the frame. */
  function LastRow(m: Frame, bottomRight: Corner): int {
    Min(bottomRight.row, Rows(m) - 1)
  }

  function LastCol(m: Frame, bottomRight: Corner): int {
    Min(bottomRight.col, Cols(m) - 1)
  }

  /** With a valid region the viewer's slicing keeps exactly rows
      `top_left.row ..= LastRow` and columns `top_left.col ..= LastCol`. */
  lemma CropShape(m: Frame, topLeft: Corner, bottomRight: Corner)
    requires ValidRegion(m, topLeft, bottomRight)
    ensures var c := CropAsWritten(m, topLeft, bottomRight);
            && |c| == LastRow(m, bottomRight) - topLeft.row + 1
            && (forall i :: 0 <= i < |c| ==> |c[i]| == LastCol(m, bottomRight) - topLeft.col + 1)
            && forall i, j :: 0 <= i < |c| && 0 <= j < |c[i]| ==>
                 topLeft.row + i < |m| && topLeft.col + j < |m[topLeft.row + i]|
                 && c[i][j] == m[topLeft.row + i][topLeft.col + j]
  {
    var rows := Slice(m, topLeft.row, bottomRight.row + 1);
    var c := CropAsWritten(m, topLeft, bottomRight);
    assert |rows| == LastRow(m, bottomRight) - topLeft.row + 1;
    forall i | 0 <= i < |c|
      ensures |c[i]| == LastCol(m, bottomRight) - topLeft.col + 1
      ensures forall j :: 0 <= j < |c[i]| ==>
                topLeft.row + i < |m| && topLeft.col + j < |m[topLeft.row + i]|
                && c[i][j] == m[topLeft.row + i][topLeft.col + j]
    {
      assert rows[i] == m[topLeft.row + i];
      assert |rows[i]| == Cols(m);
      assert c[i] == Slice(rows[i], topLeft.col, bottomRight.col + 1);
    }
  }

  /** The crop of a valid region; an inverted, negative or outside region
      raises ValueError instead of averaging nothing. */
  function Crop(m: Frame, topLeft: Corner, bottomRight: Corner): (r: Result<Frame>)
    ensures r.Ok? <==> ValidRegion(m, topLeft, bottomRight)
    ensures r.Raise? ==> r.error == ValueError
    ensures r.Ok? ==> |r.value| == LastRow(m, bottomRight) - topLeft.row + 1
                      && forall i :: 0 <= i < |r.value| ==>
                           |r.value[i]| == LastCol(m, bottomRight) - topLeft.col + 1
    ensures r.Ok? ==> forall i, j :: 0 <= i < |r.value| && 0 <= j < |r.value[i]| ==>
                        topLeft.row + i < |m| && topLeft.col + j < |m[topLeft.row + i]|
                        && r.value[i][j] == m[topLeft.row + i][topLeft.col + j]
  {
    if !ValidRegion(m, topLeft, bottomRight) then Raise(ValueError)
    else
      CropShape(m, topLeft, bottomRight);
      Ok(CropAsWritten(m, topLeft, bottomRight))
  }

  /** `Sum(a + b)` splits over the two parts. */
  lemma {:induction false} SumAppend(a: seq<int>, b: seq<int>)
    ensures Sum(a + b) == Sum(a) + Sum(b)
    decreases |b|
  {
    if b != [] {
      var ab := a + b;
      assert ab[..|ab| - 1] == a + b[..|b| - 1];
      assert ab[|ab| - 1] == b[|b| - 1];
      SumAppend(a, b[..|b| - 1]);
      assert Sum(ab) == Sum(a + b[..|b| - 1]) + b[|b| - 1];
      assert Sum(b) == Sum(b[..|b| - 1]) + b[|b| - 1];
    } else {
      assert a + b == a;
    }
  }

  /** A matrix whose rows all have `width` pixels has `|c| * width` pixels. */
  lemma {:induction false} PixelCount(c: seq<seq<int>>, width: nat)
    requires forall i :: 0 <= i < |c| ==> |c[i]| == width
    ensures |Pixels(c)| == |c| * width
  {
    if c != [] {
      PixelCount(c[..|c| - 1], width);
    }
  }

  /** The sum of `row[lo..hi]`, column by column. */
  function RowSum(row: seq<int>, lo: nat, hi: nat): int
    requires lo <= hi <= |row|
    decreases hi - lo
  {
    if lo == hi then 0 else RowSum(row, lo, hi - 1) + row[hi - 1]
  }

  /** The sum of the pixels in rows `r0..r1` and columns `c0..c1` (upper
      bounds exclusive) of a frame, independent of any slicing. */
  function BoxSum(m: Frame, r0: nat, r1: nat, c0: nat, c1: nat): int
    requires r0 <= r1 <= |m| && c0 <= c1 <= Cols(m)
    decreases r1 - r0
  {
    if r0 == r1 then 0
    else
      assert |m[r1 - 1]| == Cols(m);
      BoxSum(m, r0, r1 - 1, c0, c1) + RowSum(m[r1 - 1], c0, c1)
  }

  lemma {:induction false} SumIsRowSum(row: seq<int>, lo: nat, hi: nat)
    requires lo <= hi <= |row|
    ensures Sum(row[lo..hi]) == RowSum(row, lo, hi)
    decreases hi - lo
  {
    if lo < hi {
      assert row[lo..hi][..hi - lo - 1] == row[lo..hi - 1];
      SumIsRowSum(row, lo, hi - 1);
    }
  }

  /** The first `k` rows of a crop hold the sum of the matching box of the frame. */
  lemma {:induction false} CropSumIsBoxSum(m: Frame, c: seq<seq<int>>, r0: nat, c0: nat, width: nat, k: nat)
    requires k <= |c| && r0 + |c| <= |m| && c0 + width <= Cols(m)
    requires forall i :: 0 <= i < |c| ==> |c[i]| == width
    requires forall i, j :: 0 <= i < |c| && 0 <= j < width ==>
               r0 + i < |m| && c0 + j < |m[r0 + i]| && c[i][j] == m[r0 + i][c0 + j]
    ensures Sum(Pixels(c[..k])) == BoxSum(m, r0, r0 + k, c0, c0 + width)
  {
    if k > 0 {
      CropSumIsBoxSum(m, c, r0, c0, width, k - 1);
      assert c[..k][..k - 1] == c[..k - 1];
      var row := m[r0 + k - 1];
      assert |row| == Cols(m);
      assert c[k - 1] == row[c0..c0 + width];
      SumAppend(Pixels(c[..k - 1]), c[k - 1]);
      SumIsRowSum(row, c0, c0 + width);
    }
  }

  /** The mean of a valid region computed straight from the frame: the
      box sum over the clamped rectangle divided by its pixel count. */
  function RegionMean(m: Frame, topLeft: Corner, bottomRight: Corner): real
    requires ValidRegion(m, topLeft, bottomRight)
  {
    var height := LastRow(m, bottomRight) - topLeft.row + 1;
    var width := LastCol(m, bottomRight) - topLeft.col + 1;
    BoxSum(m, topLeft.row, topLeft.row + height, topLeft.col, topLeft.col + width) as real
    / (height * width) as real
  }

  /** Averaging the crop gives the region's mean. */
  lemma CropMeanIsRegionMean(m: Frame, topLeft: Corner, bottomRight: Corner)
    requires ValidRegion(m, topLeft, bottomRight)
    ensures Crop(m, topLeft, bottomRight).Ok?
    ensures |Pixels(Crop(m, topLeft, bottomRight).value)| > 0
    ensures Mean(Crop(m, topLeft, bottomRight).value) == RegionMean(m, topLeft, bottomRight)
  {
    var c := CropAsWritten(m, topLeft, bottomRight);
    assert Crop(m, topLeft, bottomRight) == Ok(c);
    CropShape(m, topLeft, bottomRight);
    MeanOfRegion(m, c, topLeft, bottomRight);
  }

  /** A block with the region's shape, copied from the region's pixels,
      averages to the region's mean. */
  lemma MeanOfRegion(m: Frame, c: seq<seq<int>>, topLeft: Corner, bottomRight: Corner)
    requires ValidRegion(m, topLeft, bottomRight)
    requires |c| == LastRow(m, bottomRight) - topLeft.row + 1
    requires forall i :: 0 <= i < |c| ==> |c[i]| == LastCol(m, bottomRight) - topLeft.col + 1
    requires forall i, j :: 0 <= i < |c| && 0 <= j < |c[i]| ==>
               topLeft.row + i < |m| && topLeft.col + j < |m[topLeft.row + i]|
               && c[i][j] == m[topLeft.row + i][topLeft.col + j]
    ensures |Pixels(c)| > 0 && Mean(c) == RegionMean(m, topLeft, bottomRight)
  {
    var height := LastRow(m, bottomRight) - topLeft.row + 1;
    var width := LastCol(m, bottomRight) - topLeft.col + 1;
    MeanOfBox(m, c, topLeft.row, topLeft.col, height, width);
  }

  /** A block copied out of the frame averages to the frame's box sum over
      the block's pixel count. */
  lemma MeanOfBox(m: Frame, c: seq<seq<int>>, r0: nat, c0: nat, height: nat, width: nat)
    requires |c| == height > 0 && width > 0 && r0 + height <= |m| && c0 + width <= Cols(m)
    requires forall i :: 0 <= i < |c| ==> |c[i]| == width
    requires forall i, j :: 0 <= i < |c| && 0 <= j < |c[i]| ==>
               r0 + i < |m| && c0 + j < |m[r0 + i]| && c[i][j] == m[r0 + i][c0 + j]
    ensures |Pixels(c)| == height * width > 0
    ensures Mean(c) == BoxSum(m, r0, r0 + height, c0, c0 + width) as real / (height * width) as real
  {
    PixelCount(c, width);
    assert height * width > 0;
    CropSumIsBoxSum(m, c, r0, c0, width, |c|);
    assert c[..|c|] == c;
  }

  /** The value of one slide: the mean of its crop. */
  function AreaValue(stack: Stack, slide: int, topLeft: Corner, bottomRight: Corner): (r: Result<real>)
    ensures 0 <= slide ==> (r.Ok? <==> slide < |stack| && ValidRegion(stack[slide], topLeft, bottomRight))
    ensures r.Raise? ==> r.error == IndexError || r.error == ValueError
    ensures 0 <= slide && r.Ok? ==> r.value == RegionMean(stack[slide], topLeft, bottomRight)
  {
    var s :- Index(|stack|, slide);
    var c :- Crop(stack[s], topLeft, bottomRight);
    CropMeanIsRegionMean(stack[s], topLeft, bottomRight);
    Ok(Mean(c))
  }

  /** `build_array_pixel` in area mode: one mean per slide, in slide order. */
  function Values(stack: Stack, topLeft: Corner, bottomRight: Corner): (r: Result<seq<real>>)
    ensures r.Ok? <==> forall i :: 0 <= i < |stack| ==> ValidRegion(stack[i], topLeft, bottomRight)
    ensures r.Raise? ==> r.error == ValueError
    ensures r.Ok? ==> |r.value| == |stack|
                      && forall i :: 0 <= i < |stack| ==> r.value[i] == AreaValue(stack, i, topLeft, bottomRight).value
  {
    var valueOf := (i: nat) => AreaValue(stack, i, topLeft, bottomRight);
    assert forall i: nat :: valueOf(i) == AreaValue(stack, i, topLeft, bottomRight);
    assert forall i :: 0 <= i < |stack| ==> (valueOf(i).Ok? <==> ValidRegion(stack[i], topLeft, bottomRight));
    assert forall i :: 0 <= i < |stack| && valueOf(i).Raise? ==> valueOf(i).error == ValueError;
    BuildArray(|stack|, valueOf)
  }

  /** `show_image` in area mode. */
  function Spectrum(stack: Stack, topLeft: Corner, bottomRight: Corner, wavelengthMin: int, wavelengthMax: int)
    : (r: Result<seq<(int, real)>>)
    ensures r.Ok? <==> (forall i :: 0 <= i < |stack| ==> ValidRegion(stack[i], topLeft, bottomRight))
                       && |stack| == Max(wavelengthMax - wavelengthMin + 1, 0)
    ensures r.Raise? ==> r.error == ValueError
    ensures r.Ok? ==> |r.value| == |stack|
                      && forall i :: 0 <= i < |stack| ==>
                           r.value[i].0 == wavelengthMin + i
                           && r.value[i].1 == AreaValue(stack, i, topLeft, bottomRight).value
  {
    var ys :- Values(stack, topLeft, bottomRight);
    Plot(Axis(wavelengthMin, wavelengthMax), ys)
  }

  /** A region whose corners coincide is one pixel, and its mean is that pixel. */
  lemma SinglePixelRegion(stack: Stack, slide: nat, corner: Corner)
    requires slide < |stack| && ValidRegion(stack[slide], corner, corner)
    ensures Crop(stack[slide], corner, corner).Ok?
    ensures |Crop(stack[slide], corner, corner).value| == 1
    ensures Crop(stack[slide], corner, corner).value == [[stack[slide][corner.row][corner.col]]]
    ensures AreaValue(stack, slide, corner, corner) == Ok(stack[slide][corner.row][corner.col] as real)
  {
    var m := stack[slide];
    SinglePixelCrop(m, corner);
    SinglePixelMean(m, corner);
  }

  /** Coinciding corners crop a 1x1 block. */
  lemma SinglePixelCrop(m: Frame, corner: Corner)
    requires ValidRegion(m, corner, corner)
    ensures Crop(m, corner, corner) == Ok([[m[corner.row][corner.col]]])
  {
    var c := Crop(m, corner, corner).value;
    assert |c| == 1 && |c[0]| == 1;
    assert c[0] == [m[corner.row][corner.col]];
    assert c == [[m[corner.row][corner.col]]];
  }

  /** The mean of a one-pixel region is the pixel. */
  lemma SinglePixelMean(m: Frame, corner: Corner)
    requires ValidRegion(m, corner, corner)
    ensures RegionMean(m, corner, corner) == m[corner.row][corner.col] as real
  {
    assert |m[corner.row]| == Cols(m);
    assert RowSum(m[corner.row], corner.col, corner.col + 1) == m[corner.row][corner.col] by {
      assert RowSum(m[corner.row], corner.col, corner.col) == 0;
    }
    assert BoxSum(m, corner.row, corner.row, corner.col, corner.col + 1) == 0;
    assert BoxSum(m, corner.row, corner.row + 1, corner.col, corner.col + 1) == m[corner.row][corner.col];
    assert LastRow(m, corner) == corner.row && LastCol(m, corner) == corner.col;
    assert RegionMean(m, corner, corner) == m[corner.row][corner.col] as real / 1.0;
  }

  /** A bottom-right corner past the edge of the frame crops the same pixels
      as the frame's last row and column would. */
  lemma ClampedCorner(m: Frame, topLeft: Corner, bottomRight: Corner)
    requires ValidRegion(m, topLeft, bottomRight)
    ensures Crop(m, topLeft, bottomRight)
            == Crop(m, topLeft, Corner(LastRow(m, bottomRight), LastCol(m, bottomRight)))
  {
    var a := Crop(m, topLeft, bottomRight).value;
    var b := Crop(m, topLeft, Corner(LastRow(m, bottomRight), LastCol(m, bottomRight))).value;
    assert |a| == |b|;
    forall i | 0 <= i < |a|
      ensures a[i] == b[i]
    {
      assert |a[i]| == |b[i]|;
      assert forall j :: 0 <= j < |a[i]| ==> a[i][j] == b[i][j];
    }
    assert a == b;
  }

  /** Whatever the pixels, a mean lies between the smallest and largest of them. */
  lemma {:induction false} SumBounds(s: seq<int>, lo: int, hi: int)
    requires forall k :: 0 <= k < |s| ==> lo <= s[k] <= hi
    ensures |s| * lo <= Sum(s) <= |s| * hi
  {
    if s != [] {
      SumBounds(s[..|s| - 1], lo, hi);
      assert (|s| - 1) * lo + lo == |s| * lo;
      assert (|s| - 1) * hi + hi == |s| * hi;
    }
  }

  lemma MeanWithinPixelRange(c: seq<seq<int>>, lo: int, hi: int)
    requires |Pixels(c)| > 0
    requires forall k :: 0 <= k < |Pixels(c)| ==> lo <= Pixels(c)[k] <= hi
    ensures lo as real <= Mean(c) <= hi as real
  {
    var p := Pixels(c);
    SumBounds(p, lo, hi);
    QuotientBounds(Sum(p), |p|, lo, hi);
  }

  /** A sum of `n` numbers, each between `lo` and `hi`, divided by `n`. */
  lemma QuotientBounds(s: int, n: nat, lo: int, hi: int)
    requires n > 0 && n * lo <= s <= n * hi
    ensures lo as real <= s as real / n as real <= hi as real
  {
    var count := n as real;
    var q := s as real / count;
    assert q * count == s as real;
    assert (n * lo) as real == lo as real * count && (n * hi) as real == hi as real * count;
    assert lo as real <= q by {
      assert (q - lo as real) * count == q * count - lo as real * count;
    }
    assert q <= hi as real by {
      assert (hi as real - q) * count == hi as real * count - q * count;
    }
  }

  /** Corners in the wrong order with a non-negative bottom-right
      coordinate, as the viewer slices them: no exception, an empty
      crop, and a NaN in the spectrum for every slide. */
  lemma InvertedCornersGiveNaN(stack: Stack, slide: nat, topLeft: Corner, bottomRight: Corner)
    requires slide < |stack|
    requires 0 <= bottomRight.row < topLeft.row || 0 <= bottomRight.col < topLeft.col
    ensures AreaValueAsWritten(stack, slide, topLeft, bottomRight) == Ok(None)
    ensures Crop(stack[slide], topLeft, bottomRight) == Raise(ValueError)
  {
    var c := CropAsWritten(stack[slide], topLeft, bottomRight);
    if 0 <= bottomRight.col < topLeft.col {
      PixelCount(c, 0);
    }
  }

  /** The concrete case: on the frame [[1, 2], [3, 4]] the corners (1, 1)
      and (0, 0) make the viewer plot NaN; the checked crop raises. */
  lemma InvertedCornersExample()
    ensures AreaValueAsWritten([[[1, 2], [3, 4]]], 0, Corner(1, 1), Corner(0, 0)) == Ok(None)
    ensures AreaValue([[[1, 2], [3, 4]]], 0, Corner(1, 1), Corner(0, 0)) == Raise(ValueError)
  {
    InvertedCornersGiveNaN([[[1, 2], [3, 4]]], 0, Corner(1, 1), Corner(0, 0));
  }

  /** On a valid region the correction changes nothing: the viewer's own
      value is the region mean that `AreaValue` returns. */
  lemma AsWrittenAgreesOnValidRegion(stack: Stack, slide: nat, topLeft: Corner, bottomRight: Corner)
    requires slide < |stack| && ValidRegion(stack[slide], topLeft, bottomRight)
    ensures AreaValue(stack, slide, topLeft, bottomRight).Ok?
    ensures AreaValueAsWritten(stack, slide, topLeft, bottomRight)
            == Ok(Some(AreaValue(stack, slide, topLeft, bottomRight).value))
  {
    CropShape(stack[slide], topLeft, bottomRight);
    CropMeanIsRegionMean(stack[slide], topLeft, bottomRight);
  }

  /** A top-left corner below or right of the frame, as the viewer slices
      it: no exception, no pixels, and NaN; the checked crop raises. */
  lemma OutsideFrameGivesNaN(stack: Stack, slide: nat, topLeft: Corner, bottomRight: Corner)
    requires slide < |stack| && 0 <= topLeft.row && 0 <= topLeft.col
    requires topLeft.row >= Rows(stack[slide]) || topLeft.col >= Cols(stack[slide])
    ensures AreaValueAsWritten(stack, slide, topLeft, bottomRight) == Ok(None)
    ensures Crop(stack[slide], topLeft, bottomRight) == Raise(ValueError)
  {
    var c := CropAsWritten(stack[slide], topLeft, bottomRight);
    if topLeft.row < Rows(stack[slide]) {
      PixelCount(c, 0);
    }
  }

  /** A negative corner, as the viewer slices it, counts from the far edge
      of the frame: it crops what the wrapped corner crops. The checked
      crop rejects it. */
  lemma NegativeCornerWraps(m: Frame, topLeft: Corner, bottomRight: Corner)
    requires -(Rows(m) as int) <= topLeft.row < 0 && -(Cols(m) as int) <= topLeft.col < 0
    ensures CropAsWritten(m, topLeft, bottomRight)
            == CropAsWritten(m, Corner(topLeft.row + Rows(m), topLeft.col + Cols(m)), bottomRight)
    ensures Crop(m, topLeft, bottomRight) == Raise(ValueError)
  {
    var wrapped := Corner(topLeft.row + Rows(m), topLeft.col + Cols(m));
    var a := CropAsWritten(m, topLeft, bottomRight);
    var b := CropAsWritten(m, wrapped, bottomRight);
    assert SliceBound(|m|, topLeft.row) == SliceBound(|m|, wrapped.row);
    assert SliceBound(Cols(m), topLeft.col) == SliceBound(Cols(m), wrapped.col);
    assert |a| == |b|;
    forall i | 0 <= i < |a|
      ensures a[i] == b[i]
    {
      assert |a[i]| == |b[i]|;
    }
  }

  /** A bottom-right coordinate of -2 or below, as the viewer slices it,
      also counts from the far edge: the slice stops after the wrapped
      corner. The checked crop rejects it. */
  lemma NegativeBottomRightWraps(m: Frame, topLeft: Corner, bottomRight: Corner)
    requires -(Rows(m) as int) - 1 <= bottomRight.row <= -2
    requires -(Cols(m) as int) - 1 <= bottomRight.col <= -2
    ensures CropAsWritten(m, topLeft, bottomRight)
            == CropAsWritten(m, topLeft, Corner(bottomRight.row + Rows(m), bottomRight.col + Cols(m)))
    ensures Crop(m, topLeft, bottomRight) == Raise(ValueError)
  {
    var wrapped := Corner(bottomRight.row + Rows(m), bottomRight.col + Cols(m));
    var a := CropAsWritten(m, topLeft, bottomRight);
    var b := CropAsWritten(m, topLeft, wrapped);
    assert SliceBound(|m|, bottomRight.row + 1) == SliceBound(|m|, wrapped.row + 1);
    assert SliceBound(Cols(m), bottomRight.col + 1) == SliceBound(Cols(m), wrapped.col + 1);
    assert |a| == |b|;
    forall i | 0 <= i < |a|
      ensures a[i] == b[i]
    {
      assert |a[i]| == |b[i]|;
    }
  }

  /** A bottom-right coordinate of exactly -1, or one below minus the
      frame's extent, makes the slice stop at 0, so the viewer averages no
      pixels and plots NaN; the checked crop raises. */
  lemma StopAtZeroGivesNaN(stack: Stack, slide: nat, topLeft: Corner, bottomRight: Corner)
    requires slide < |stack|
    requires bottomRight.row == -1 || bottomRight.row < -(Rows(stack[slide]) as int)
             || bottomRight.col == -1 || bottomRight.col < -(Cols(stack[slide]) as int)
    ensures AreaValueAsWritten(stack, slide, topLeft, bottomRight) == Ok(None)
    ensures Crop(stack[slide], topLeft, bottomRight) == Raise(ValueError)
  {
    var c := CropAsWritten(stack[slide], topLeft, bottomRight);
    if !(bottomRight.row == -1 || bottomRight.row < -(Rows(stack[slide]) as int)) {
      PixelCount(c, 0);
    }
  }

  /** The concrete case: on a 3x3 frame the corners (0, 0) and (-2, -2)
      make the viewer average the top-left 2x2 block, 1, 2, 4 and 5; the
      checked crop raises. */
  lemma NegativeBottomRightExample()
    ensures AreaValueAsWritten([[[1, 2, 3], [4, 5, 6], [7, 8, 9]]], 0, Corner(0, 0), Corner(-2, -2))
            == Ok(Some(3.0))
    ensures AreaValue([[[1, 2, 3], [4, 5, 6], [7, 8, 9]]], 0, Corner(0, 0), Corner(-2, -2)) == Raise(ValueError)
  {
    var m: Frame := [[1, 2, 3], [4, 5, 6], [7, 8, 9]];
    assert Rows(m) == 3 && Cols(m) == 3;
    NegativeBottomRightWraps(m, Corner(0, 0), Corner(-2, -2));
    TopLeftBlock();
    TopLeftBlockMean();
  }

  /** The viewer's slice of the 3x3 frame between (0, 0) and (1, 1). */
  lemma TopLeftBlock()
    ensures CropAsWritten([[1, 2, 3], [4, 5, 6], [7, 8, 9]], Corner(0, 0), Corner(1, 1)) == [[1, 2], [4, 5]]
  {
    var m: Frame := [[1, 2, 3], [4, 5, 6], [7, 8, 9]];
    var c := CropAsWritten(m, Corner(0, 0), Corner(1, 1));
    assert Cols(m) == 3;
    assert |c| == 2 && |c[0]| == 2 && |c[1]| == 2;
    assert c[0][0] == 1 && c[0][1] == 2 && c[1][0] == 4 && c[1][1] == 5;
    assert c[0] == [1, 2] && c[1] == [4, 5];
  }

  /** The mean of that 2x2 block. */
  lemma TopLeftBlockMean()
    ensures NumpyMean([[1, 2], [4, 5]]) == Some(3.0)
  {
    var c := [[1, 2], [4, 5]];
    assert c[..1] == [[1, 2]] && [[1, 2]][..0] == [];
    assert Pixels([[1, 2]]) == [1, 2];
    assert Pixels(c) == [1, 2] + [4, 5] == [1, 2, 4, 5];
    assert [1][..0] == [] && [1, 2][..1] == [1] && [1, 2, 4][..2] == [1, 2] && [1, 2, 4, 5][..3] == [1, 2, 4];
    assert Sum([1]) == 1 && Sum([1, 2]) == 3 && Sum([1, 2, 4]) == 7 && Sum([1, 2, 4, 5]) == 12;
    assert Sum(Pixels(c)) == 12 && |Pixels(c)| == 4;
    assert Mean(c) == 12.0 / 4.0;
  }

  /** The concrete case: on a 3x3 frame the corners (-1, -1) and (5, 5)
      make the viewer average the bottom-right pixel alone; the checked
      crop raises. */
  lemma NegativeCornerExample()
    ensures AreaValueAsWritten([[[1, 2, 3], [4, 5, 6], [7, 8, 9]]], 0, Corner(-1, -1), Corner(5, 5))
            == Ok(Some(9.0))
    ensures AreaValue([[[1, 2, 3], [4, 5, 6], [7, 8, 9]]], 0, Corner(-1, -1), Corner(5, 5)) == Raise(ValueError)
  {
    var m: Frame := [[1, 2, 3], [4, 5, 6], [7, 8, 9]];
    var stack: Stack := [m];
    var corner := Corner(2, 2);
    var far := Corner(5, 5);
    assert Rows(m) == 3 && Cols(m) == 3;
    NegativeCornerWraps(m, Corner(-1, -1), far);
    assert AreaValueAsWritten(stack, 0, Corner(-1, -1), far) == AreaValueAsWritten(stack, 0, corner, far);
    AsWrittenAgreesOnValidRegion(stack, 0, corner, far);
    assert LastRow(m, far) == LastRow(m, corner) && LastCol(m, far) == LastCol(m, corner);
    assert RegionMean(m, corner, far) == RegionMean(m, corner, corner);
    SinglePixelMean(m, corner);
    assert m[2][2] == 9;
  }
}

=== FILE: capture_run.dfy ===
/** The capture form's run handler: it checks the three numeric fields,
    checks that the minimum wavelength lies below the maximum, and only
    then asks the camera/filter synchroniser for one frame per wavelength
    of `min ..= max`, written to a file whose name records the range and
    the start time. */
module CaptureRun {
  import opened Python
  import opened Decimal

  /** Python's `float(text)` (does it parse?) and `int(text)` (its value,
      or `None` for ValueError). Their grammar is not modelled; they are
      supplied by the caller. */
  datatype NumberSyntax = NumberSyntax(parsesAsFloat: string -> bool, intValue: string -> Option<int>)

  /** The most digits `int()` converts by default (`sys.int_info.default_max_str_digits`);
      a longer run of digits raises ValueError, although `float()` reads it. */
  const IntMaxStrDigits := 4300

  /** What every faithful choice of the two parsers satisfies: the empty
      text parses as neither, anything `int()` accepts `float()` accepts
      too, and a plain run of at most `IntMaxStrDigits` ASCII digits is read
      as its decimal value. */
  ghost predicate Coherent(p: NumberSyntax) {
    && !p.parsesAsFloat("")
    && p.intValue("") == None
    && (forall s :: p.intValue(s).Some? ==> p.parsesAsFloat(s))
    && (forall s :: s != "" && |s| <= IntMaxStrDigits && AllDigits(s) ==> p.intValue(s) == Some(Value(s)))
  }

  /** `validate_float`: the empty text, or any text `float()` parses. */
  function ValidateFloat(p: NumberSyntax, text: string): (ok: bool)
    ensures ok <==> text == "" || p.parsesAsFloat(text)
  {
    if text == "" then true else p.parsesAsFloat(text)
  }

  /** `validate_integer`: it evaluates `float(P) % 1 == 0` and throws the
      comparison away, so only the parse can fail. It therefore accepts
      exactly what `validate_float` accepts, "1.5" included. */
  function ValidateInteger(p: NumberSyntax, text: string): (ok: bool)
    ensures ok == ValidateFloat(p, text)
  {
    if text == "" then true
    else if !p.parsesAsFloat(text) then false  // float(P) raised ValueError
    else true                                 // the `% 1 == 0` test is discarded
  }

  /** A non-integral number passes the integer check although `int()`
      rejects it. */
  lemma IntegerCheckAcceptsFractions(p: NumberSyntax)
    requires p.parsesAsFloat("1.5") && p.intValue("1.5") == None
    ensures ValidateInteger(p, "1.5")
    ensures p.intValue("1.5").None?
  {
  }

  /** The outcome of checking one field: the verdict and the text left
      in that field's error label. */
  datatype Check = Check(accepted: bool, errorText: string)

  /** `validate_entry`: the validator's verdict; the error label is
      cleared on success and shows `message` on failure. */
  function ValidateEntry(validate: string -> bool, value: string, message: string): (c: Check)
    ensures c.accepted == validate(value)
    ensures message != "" ==> (c.errorText == "" <==> c.accepted)
    ensures !c.accepted ==> c.errorText == message
  {
    if validate(value) then Check(true, "") else Check(false, message)
  }

  /** `min_smaller_max`: `int(min) < int(max)`, with ValueError when
      either text is not an integer literal. */
  function MinSmallerMax(p: NumberSyntax, minText: string, maxText: string, message: string): (r: Result<Check>)
    ensures r.Raise? <==> p.intValue(minText).None? || p.intValue(maxText).None?
    ensures r.Raise? ==> r.error == ValueError
    ensures r.Ok? ==> (r.value.accepted <==> p.intValue(minText).value < p.intValue(maxText).value)
    ensures r.Ok? && message != "" ==> (r.value.errorText == "" <==> r.value.accepted)
    ensures r.Ok? && !r.value.accepted ==> r.value.errorText == message
  {
    match (p.intValue(minText), p.intValue(maxText))
    case (Some(lo), Some(hi)) =>
      if lo < hi then Ok(Check(true, "")) else Ok(Check(false, message))
    case _ => Raise(ValueError)
  }

  /** Equal bounds are rejected: a run needs at least two wavelengths. */
  lemma EqualBoundsRejected(p: NumberSyntax, text: string, message: string)
    requires p.intValue(text).Some?
    ensures MinSmallerMax(p, text, text, message) == Ok(Check(false, message))
  {
  }

  /** A field that passes the integer check yet is not an `int()` literal
      (the empty text, "1.5") makes the order check raise instead of
      answering false. */
  lemma AcceptedButNotIntegerRaises(p: NumberSyntax, minText: string, maxText: string, message: string)
    requires ValidateInteger(p, minText) && p.intValue(minText).None?
    ensures MinSmallerMax(p, minText, maxText, message) == Raise(ValueError)
  {
  }

  /** `[int(min) + i for i in range(int(max) - int(min) + 1)]`: the
      wavelengths the synchroniser steps through. */
  function CaptureWavelengths(lo: int, hi: int): (ws: seq<int>)
    ensures |ws| == Max(hi - lo + 1, 0)
    ensures forall i :: 0 <= i < |ws| ==> ws[i] == lo + i
    ensures forall i, j :: 0 <= i < j < |ws| ==> ws[i] < ws[j]
    ensures lo <= hi ==> ws[0] == lo && ws[|ws| - 1] == hi
  {
    seq(Max(hi - lo + 1, 0), i => lo + i)
  }

  /** A moment as `datetime.now()` reports it. */
  datatype DateTime = DateTime(year: nat, month: nat, day: nat, hour: nat, minute: nat, second: nat)

  predicate ValidDateTime(t: DateTime) {
    && 1 <= t.year <= 9999
    && 1 <= t.month <= 12
    && 1 <= t.day <= 31
    && t.hour < 24
    && t.minute < 60
    && t.second < 60
  }

  /** `strftime("%Y-%m-%d_%H-%M-%S")`. */
  function Stamp(t: DateTime): (s: string)
    requires ValidDateTime(t)
    ensures 1000 <= t.year ==> |s| == 19
  {
    var s := Show(t.year) + "-" + Pad2(t.month) + "-" + Pad2(t.day) + "_"
             + Pad2(t.hour) + "-" + Pad2(t.minute) + "-" + Pad2(t.second);
    assert 1000 <= t.year ==> |s| == 19 by {
      if 1000 <= t.year {
        ShowFourDigits(t.year);
      }
    }
    s
  }

  /** `f"{filename}_wl_{min}-{max}nm_{timestamp}.tif"`; the wavelengths
      appear as typed into the form, not as converted by `int()`. */
  function Filename(name: string, minText: string, maxText: string, now: DateTime): (f: string)
    requires ValidDateTime(now)
    ensures |name| + 4 <= |f| && f[..|name| + 4] == name + "_wl_"
    ensures EndsWith(f, ".tif")
    ensures 1000 <= now.year ==> |f| == |name| + |minText| + |maxText| + 31
  {
    name + "_wl_" + minText + "-" + maxText + "nm_" + Stamp(now) + ".tif"
  }

  /** The parts a capture file name records. */
  datatype FilenameFields = FilenameFields(name: string, minText: string, maxText: string, stamp: DateTime)

  /** Reads a 19-character `%Y-%m-%d_%H-%M-%S` stamp back. */
  function ParseStamp(s: string): Option<DateTime> {
    if |s| == 19
       && AllDigits(s[0..4]) && s[4] == '-' && AllDigits(s[5..7]) && s[7] == '-'
       && AllDigits(s[8..10]) && s[10] == '_' && AllDigits(s[11..13]) && s[13] == '-'
       && AllDigits(s[14..16]) && s[16] == '-' && AllDigits(s[17..19])
    then
      Some(DateTime(Value(s[0..4]), Value(s[5..7]), Value(s[8..10]),
                    Value(s[11..13]), Value(s[14..16]), Value(s[17..19])))
    else None
  }

  predicate EndsWith(s: string, suffix: string) {
    |suffix| <= |s| && s[|s| - |suffix|..] == suffix
  }

  /** Splits `{name}_wl_{min}-{max}` from the right: the maximum's
      digits, "-", the minimum's digits, "_wl_", and the user's name, which
      may itself contain anything. */
  function ParseRange(core: string): Option<(string, string, string)> {
    var maxText := DigitSuffix(core);
    var beforeMax := core[..|core| - |maxText|];
    if maxText == [] || !EndsWith(beforeMax, "-") then None
    else
      var core2 := beforeMax[..|beforeMax| - 1];
      var minText := DigitSuffix(core2);
      var beforeMin := core2[..|core2| - |minText|];
      if minText == [] || !EndsWith(beforeMin, "_wl_") then None
      else Some((beforeMin[..|beforeMin| - 4], minText, maxText))
  }

  /** Splits a capture file name: extension, stamp, "nm_", then the range part. */
  function ParseFilename(f: string): Option<FilenameFields> {
    if |f| < 26 || !EndsWith(f, ".tif") || f[|f| - 26..|f| - 23] != "nm_" then None
    else
      var stamp := ParseStamp(f[|f| - 23..|f| - 4]);
      var range := ParseRange(f[..|f| - 26]);
      if stamp.None? || range.None? then None
      else Some(FilenameFields(range.value.0, range.value.1, range.value.2, stamp.value))
  }

  /** The stamp reads back as the moment it was printed from. */
  lemma StampRoundTrip(t: DateTime)
    requires ValidDateTime(t) && 1000 <= t.year
    ensures ParseStamp(Stamp(t)) == Some(t)
  {
    var s := Stamp(t);
    ShowFourDigits(t.year);
    assert s[0..4] == Show(t.year);
    assert s[5..7] == Pad2(t.month);
    assert s[8..10] == Pad2(t.day);
    assert s[11..13] == Pad2(t.hour);
    assert s[14..16] == Pad2(t.minute);
    assert s[17..19] == Pad2(t.second);
  }

  /** The range part reads back as the name and the two digit texts. */
  lemma RangeRoundTrip(name: string, minText: string, maxText: string)
    requires minText != "" && AllDigits(minText)
    requires maxText != "" && AllDigits(maxText)
    ensures ParseRange(name + "_wl_" + minText + "-" + maxText) == Some((name, minText, maxText))
  {
    var head := name + "_wl_";
    var core2 := head + minText;
    var beforeMax := core2 + "-";
    PeelSuffix(core2, "-");
    PeelDigits(beforeMax, maxText);
    PeelSuffix(name, "_wl_");
    PeelDigits(head, minText);
  }

  /** Digits glued after a non-digit come off again as the digit suffix. */
  lemma PeelDigits(prefix: string, d: string)
    requires |prefix| > 0 && !IsDigit(prefix[|prefix| - 1]) && AllDigits(d)
    ensures DigitSuffix(prefix + d) == d
    ensures (prefix + d)[..|prefix + d| - |d|] == prefix
  {
    DigitSuffixAfterSeparator(prefix, d);
    assert (prefix + d)[..|prefix|] == prefix;
  }

  /** A separator glued to a text is recognised and comes off again. */
  lemma PeelSuffix(front: string, separator: string)
    ensures EndsWith(front + separator, separator)
    ensures (front + separator)[..|front + separator| - |separator|] == front
    ensures |separator| > 0 ==> (front + separator)[|front + separator| - 1] == separator[|separator| - 1]
  {
    assert (front + separator)[|front|..] == separator;
    assert (front + separator)[..|front|] == front;
  }

  /** A file name built from a digit-only range can be taken apart again:
      the user's name, both wavelength texts and the start time all come
      back unchanged, whatever the name contains. */
  lemma FilenameRoundTrip(name: string, minText: string, maxText: string, now: DateTime)
    requires minText != "" && AllDigits(minText)
    requires maxText != "" && AllDigits(maxText)
    requires ValidDateTime(now) && 1000 <= now.year
    ensures ParseFilename(Filename(name, minText, maxText, now))
            == Some(FilenameFields(name, minText, maxText, now))
  {
    StampRoundTrip(now);
    RangeRoundTrip(name, minText, maxText);
    var core := name + "_wl_" + minText + "-" + maxText;
    assert Filename(name, minText, maxText, now) == core + "nm_" + Stamp(now) + ".tif";
    ParseFilenameParts(core, Stamp(now));
  }

  /** The parser reads the stamp and the range part at fixed offsets from
      the end of the name. */
  lemma ParseFilenameParts(core: string, stamp: string)
    requires |stamp| == 19
    ensures var parsed := ParseFilename(core + "nm_" + stamp + ".tif");
            && (parsed.Some? <==> ParseStamp(stamp).Some? && ParseRange(core).Some?)
            && (parsed.Some? ==>
                  parsed.value == FilenameFields(ParseRange(core).value.0, ParseRange(core).value.1,
                                                 ParseRange(core).value.2, ParseStamp(stamp).value))
  {
    var f := core + "nm_" + stamp + ".tif";
    assert |f| == |core| + 26;
    assert f[|f| - 4..] == ".tif";
    assert f[|f| - 23..|f| - 4] == stamp;
    assert f[|f| - 26..|f| - 23] == "nm_";
    assert f[..|f| - 26] == core;
  }

  const MinMessage := "Please enter a valid integer for Min. Wavelength!"
  const MaxMessage := "Please enter a valid integer for Max. Wavelength"
  const ExposureMessage := "Please enter a valid float for Exposure time"
  const OrderMessage := "Max. Wavelength must be bigger than Min. Wavelength!"

  /** The form as the handler reads it. */
  datatype Form = Form(minText: string, maxText: string, exposureText: string, name: string)

  /** The three error labels under the form's fields. */
  datatype Labels = Labels(minError: string, maxError: string, exposureError: string)

  /** What the handler hands the synchroniser. */
  datatype CaptureRequest = CaptureRequest(wavelengths: seq<int>, filename: string)

  datatype RunOutcome = RunOutcome(labels: Labels, request: Option<CaptureRequest>)

  /** Whether the three field checks pass and the order check holds: the
      condition under which a capture starts. */
  predicate Startable(p: NumberSyntax, form: Form) {
    && ValidateInteger(p, form.minText)
    && ValidateInteger(p, form.maxText)
    && ValidateFloat(p, form.exposureText)
    && p.intValue(form.minText).Some?
    && p.intValue(form.maxText).Some?
    && p.intValue(form.minText).value < p.intValue(form.maxText).value
  }

  /** `run_script`. The exposure text goes through `float()` before any
      check, so a blank or malformed exposure raises ValueError at once;
      then the three fields are checked, then the order of the bounds, and
      only then is a capture requested. */
  function RunScript(p: NumberSyntax, form: Form, now: DateTime): (r: Result<RunOutcome>)
    requires ValidDateTime(now)
    ensures r.Raise? <==> !p.parsesAsFloat(form.exposureText)
                          || (&& ValidateInteger(p, form.minText) && ValidateInteger(p, form.maxText)
                              && (p.intValue(form.minText).None? || p.intValue(form.maxText).None?))
    ensures r.Raise? ==> r.error == ValueError
    ensures r.Ok? ==> (r.value.request.Some? <==> Startable(p, form))
    ensures r.Ok? && r.value.request.Some? ==>
              var lo := p.intValue(form.minText).value;
              var hi := p.intValue(form.maxText).value;
              && r.value.request.value.wavelengths == CaptureWavelengths(lo, hi)
              && |r.value.request.value.wavelengths| == hi - lo + 1 >= 2
              && r.value.request.value.filename == Filename(form.name, form.minText, form.maxText, now)
              && r.value.labels == Labels("", "", "")
    ensures r.Ok? ==> (r.value.labels.minError == "" <==> ValidateInteger(p, form.minText))
    ensures r.Ok? && !ValidateInteger(p, form.minText) ==> r.value.labels.minError == MinMessage
    ensures r.Ok? && !ValidateInteger(p, form.maxText) ==> r.value.labels.maxError == MaxMessage
    ensures r.Ok? ==> (r.value.labels.maxError == ""
                       <==> ValidateInteger(p, form.maxText)
                            && (!ValidateInteger(p, form.minText) || r.value.request.Some?))
    ensures (r.Ok? && r.value.request.None?
             && ValidateInteger(p, form.minText) && ValidateInteger(p, form.maxText))
            ==> r.value.labels.maxError == OrderMessage
  {
    if !p.parsesAsFloat(form.exposureText) then Raise(ValueError)
    else
      var minCheck := ValidateEntry(t => ValidateInteger(p, t), form.minText, MinMessage);
      var maxCheck := ValidateEntry(t => ValidateInteger(p, t), form.maxText, MaxMessage);
      var exposureCheck := ValidateEntry(t => ValidateFloat(p, t), form.exposureText, ExposureMessage);
      var labels := Labels(minCheck.errorText, maxCheck.errorText, exposureCheck.errorText);
      if !(minCheck.accepted && maxCheck.accepted && exposureCheck.accepted) then
        Ok(RunOutcome(labels, None))
      else
        var order :- MinSmallerMax(p, form.minText, form.maxText, OrderMessage);
        var labels := labels.(maxError := order.errorText);
        if !order.accepted then Ok(RunOutcome(labels, None))
        else
          var lo := p.intValue(form.minText).value;
          var hi := p.intValue(form.maxText).value;
          var request := CaptureRequest(CaptureWavelengths(lo, hi),
                                        Filename(form.name, form.minText, form.maxText, now));
          Ok(RunOutcome(labels, Some(request)))
  }

  /** The exposure check can never fail: whenever the handler gets as far
      as checking it, `float()` has already accepted the text. */
  lemma ExposureCheckNeverFails(p: NumberSyntax, form: Form, now: DateTime)
    requires ValidDateTime(now)
    requires RunScript(p, form, now).Ok?
    ensures RunScript(p, form, now).value.labels.exposureError == ""
  {
  }

  /** A blank minimum passes its field check and then makes the order
      check raise ValueError, rather than being reported on the form. */
  lemma BlankMinimumRaises(p: NumberSyntax, form: Form, now: DateTime)
    requires Coherent(p) && ValidDateTime(now)
    requires form.minText == "" && p.parsesAsFloat(form.exposureText) && ValidateInteger(p, form.maxText)
    ensures RunScript(p, form, now) == Raise(ValueError)
  {
  }

  /** With digit-only bounds `lo < hi` and a readable exposure, the run
      starts on exactly `lo ..= hi` and its file name records both texts
      and the start time. */
  lemma DigitBoundsStartCapture(p: NumberSyntax, form: Form, now: DateTime)
    requires Coherent(p) && ValidDateTime(now) && 1000 <= now.year
    requires form.minText != "" && |form.minText| <= IntMaxStrDigits && AllDigits(form.minText)
    requires form.maxText != "" && |form.maxText| <= IntMaxStrDigits && AllDigits(form.maxText)
    requires Value(form.minText) < Value(form.maxText)
    requires p.parsesAsFloat(form.exposureText)
    ensures RunScript(p, form, now).Ok?
    ensures var request := RunScript(p, form, now).value.request;
            && request.Some?
            && request.value.wavelengths == CaptureWavelengths(Value(form.minText), Value(form.maxText))
            && ParseFilename(request.value.filename)
               == Some(FilenameFields(form.name, form.minText, form.maxText, now))
  {
    assert p.intValue(form.minText) == Some(Value(form.minText));
    assert p.intValue(form.maxText) == Some(Value(form.maxText));
    StartableRun(p, form, now);
    FilenameRoundTrip(form.name, form.minText, form.maxText, now);
  }

  /** A startable form with a readable exposure clears every label and
      requests `lo ..= hi` under its file name. */
  lemma StartableRun(p: NumberSyntax, form: Form, now: DateTime)
    requires ValidDateTime(now) && Startable(p, form) && p.parsesAsFloat(form.exposureText)
    ensures RunScript(p, form, now)
            == Ok(RunOutcome(Labels("", "", ""),
                             Some(CaptureRequest(CaptureWavelengths(p.intValue(form.minText).value,
                                                                    p.intValue(form.maxText).value),
                                                 Filename(form.name, form.minText, form.maxText, now)))))
  {
  }
}

=== FILE: decimal.dfy ===
/** ASCII decimal text: what `int()` makes of a string of digits, what
    `str()` and a zero-padded `%02d`-style field make of a natural number,
    and the longest run of digits at the end of a string. */
module Decimal {

  predicate IsDigit(c: char) {
    '0' <= c <= '9'
  }

  predicate AllDigits(s: string) {
    forall k :: 0 <= k < |s| ==> IsDigit(s[k])
  }

  function DigitChar(d: nat): (c: char)
    requires d < 10
    ensures IsDigit(c)
  {
    ('0' as int + d) as char
  }

  function DigitValue(c: char): (d: nat)
    requires IsDigit(c)
    ensures d < 10 && DigitChar(d) == c
  {
    c as int - '0' as int
  }

  /** `int(s)` for a string of ASCII digits (leading zeros allowed). */
  function Value(s: string): (r: nat)
    requires AllDigits(s)
    ensures r == 0 <==> forall k :: 0 <= k < |s| ==> s[k] == '0'
  {
    if s == [] then 0 else Value(s[..|s| - 1]) * 10 + DigitValue(s[|s| - 1])
  }

  /** A digit string without a leading zero is what `str()` prints for
      its value: `int()` and `str()` are inverse on canonical spellings. */
  lemma {:induction false} ShowOfValue(s: string)
    requires AllDigits(s) && s != [] && (|s| == 1 || s[0] != '0')
    ensures Show(Value(s)) == s
  {
    var last := s[|s| - 1];
    var front := s[..|s| - 1];
    assert s == front + [last];
    if front == [] {
      ShowOfDigit(last);
    } else {
      assert front[0] != '0';
      ShowOfValue(front);
      ShowOfValueStep(front, last);
    }
  }

  /** A single digit is its own spelling. */
  lemma ShowOfDigit(c: char)
    requires IsDigit(c)
    ensures Show(Value([c])) == [c]
  {
    assert [c][..0] == [];
    assert Value([c]) == DigitValue(c);
  }

  /** One more digit after a canonical spelling keeps it canonical. */
  lemma ShowOfValueStep(front: string, last: char)
    requires AllDigits(front) && front != [] && front[0] != '0' && IsDigit(last)
    requires Show(Value(front)) == front
    ensures AllDigits(front + [last]) && Show(Value(front + [last])) == front + [last]
  {
    var s := front + [last];
    assert s[..|s| - 1] == front;
    assert Value(front) > 0;
    ShowAppend(Value(front), DigitValue(last));
  }

  /** Appending a digit to a positive number appends it to the spelling. */
  lemma ShowAppend(n: nat, d: nat)
    requires n > 0 && d < 10
    ensures Show(n * 10 + d) == Show(n) + [DigitChar(d)]
  {
    assert (n * 10 + d) / 10 == n && (n * 10 + d) % 10 == d;
  }

  /** `int()` ignores leading zeros. */
  lemma {:induction false} LeadingZero(s: string)
    requires AllDigits(s)
    ensures Value(['0'] + s) == Value(s)
  {
    if s != [] {
      var t := ['0'] + s;
      assert t[..|t| - 1] == ['0'] + s[..|s| - 1];
      LeadingZero(s[..|s| - 1]);
    }
  }

  /** `str(n)`: the shortest decimal spelling of `n`. */
  function Show(n: nat): (r: string)
    ensures AllDigits(r) && 1 <= |r|
    ensures |r| > 1 ==> r[0] != '0'
    ensures Value(r) == n
  {
    if n < 10 then [DigitChar(n)]
    else
      var r := Show(n / 10) + [DigitChar(n % 10)];
      assert r[..|r| - 1] == Show(n / 10);
      r
  }

  /** A two-character, zero-padded field, as `%m`, `%d`, `%H`, `%M` and `%S` print it. */
  function Pad2(n: nat): (r: string)
    requires n < 100
    ensures |r| == 2 && AllDigits(r) && Value(r) == n
  {
    var r := [DigitChar(n / 10), DigitChar(n % 10)];
    assert r[..1] == [DigitChar(n / 10)];
    assert [DigitChar(n / 10)][..0] == [];
    assert Value(r[..1]) == n / 10;
    r
  }

  /** A year from 1000 to 9999 prints as exactly four digits. */
  lemma ShowFourDigits(n: nat)
    requires 1000 <= n <= 9999
    ensures |Show(n)| == 4
  {
    assert |Show(n / 1000)| == 1;
    assert |Show(n / 100)| == 2 by {
      assert (n / 100) / 10 == n / 1000;
    }
    assert |Show(n / 10)| == 3 by {
      assert (n / 10) / 10 == n / 100;
    }
  }

  /** The longest suffix of `s` made only of digits. */
  function DigitSuffix(s: string): (r: string)
    ensures AllDigits(r) && |r| <= |s| && r == s[|s| - |r|..]
    ensures |r| < |s| ==> !IsDigit(s[|s| - |r| - 1])
  {
    if s == [] || !IsDigit(s[|s| - 1]) then []
    else
      var front := s[..|s| - 1];
      var r := DigitSuffix(front) + [s[|s| - 1]];
      assert front[|front| - (|r| - 1)..] + [s[|s| - 1]] == s[|s| - |r|..];
      r
  }

  /** Digits glued after a non-digit separator are exactly the digit suffix. */
  lemma DigitSuffixAfterSeparator(prefix: string, d: string)
    requires |prefix| > 0 && !IsDigit(prefix[|prefix| - 1])
    requires AllDigits(d)
    ensures DigitSuffix(prefix + d) == d
  {
    var s := prefix + d;
    assert s[|s| - |d|..] == d;
  }
}

=== FILE: image_stack.dfy ===
/** The data the spectrum viewers work on: a stack of frames (one per
    slide, in capture order), the wavelength axis they plot it against,
    and the pairing of the two that matplotlib's `plot(x, y)` performs. */
module ImageStack {
  import opened Python

  /** One slide: a rectangular matrix of pixel intensities, indexed
      `[row][column]`. Every page a TIFF reader hands back is rectangular. */
  type Frame = m: seq<seq<int>> | IsRectangular(m)

  predicate IsRectangular(m: seq<seq<int>>) {
    forall i :: 0 <= i < |m| ==> |m[i]| == |m[0]|
  }

  /** The slides of an image file in page order; slide `i` was taken at the
      `i`-th wavelength of the capture. */
  type Stack = seq<Frame>

  function Rows(m: Frame): nat {
    |m|
  }

  function Cols(m: Frame): nat {
    if |m| == 0 then 0 else |m[0]|
  }

  /** `list(range(wavelength_min, wavelength_max + 1))`: the x-axis of every
      spectrum window, inclusive of both ends. */
  function Axis(wavelengthMin: int, wavelengthMax: int): (xs: seq<int>)
    ensures |xs| == Max(wavelengthMax - wavelengthMin + 1, 0)
    ensures forall i :: 0 <= i < |xs| ==> xs[i] == wavelengthMin + i
    ensures wavelengthMin <= wavelengthMax ==> xs[0] == wavelengthMin && xs[|xs| - 1] == wavelengthMax
  {
    Range(wavelengthMin, wavelengthMax + 1)
  }

  /** `plot(xs, ys)`: matplotlib raises ValueError unless both have the
      same length; otherwise point `i` joins `xs[i]` with `ys[i]`. */
  function Plot<T>(xs: seq<int>, ys: seq<T>): (r: Result<seq<(int, T)>>)
    ensures r.Ok? <==> |xs| == |ys|
    ensures r.Raise? ==> r.error == ValueError
    ensures r.Ok? ==> |r.value| == |xs|
                      && forall i :: 0 <= i < |xs| ==> r.value[i].0 == xs[i] && r.value[i].1 == ys[i]
  {
    if |xs| != |ys| then Raise(ValueError)
    else Ok(seq(|xs|, i requires 0 <= i < |xs| => (xs[i], ys[i])))
  }

  /** `build_array_pixel`: asks for the value of slide 0, 1, ... in turn and
      appends each; the first slide whose value raises aborts the whole list
      with that slide's exception. */
  function BuildArray<T>(slideCount: nat, valueOf: nat -> Result<T>): (r: Result<seq<T>>)
    ensures r.Ok? <==> forall i :: 0 <= i < slideCount ==> valueOf(i).Ok?
    ensures r.Ok? ==> |r.value| == slideCount
                      && forall i :: 0 <= i < slideCount ==> r.value[i] == valueOf(i).value
    ensures r.Raise? ==> exists i :: 0 <= i < slideCount && valueOf(i) == Raise(r.error)
                                     && forall j :: 0 <= j < i ==> valueOf(j).Ok?
  {
    if slideCount == 0 then Ok([])
    else
      var front :- BuildArray(slideCount - 1, valueOf);
      var last :- valueOf(slideCount - 1);
      Ok(front + [last])
  }
}

=== FILE: kurios_id.dfy ===
/** The identification helpers of the Kurios filter example: reading the
    optical head's serial number (after "SN") and the controller's (after
    "CN") out of an ID string, the warning for a mismatched pair, and the
    decoding of a bit-mask character into the names of its set bits. */
module KuriosId {
  import opened Python
  import opened Decimal

  /** `tag` starts at position `i` and is followed by at least one digit:
      where the pattern `<tag>(\d{1,10})` can match. */
  predicate TagAt(s: string, tag: string, i: int) {
    0 <= i && i + |tag| < |s| && s[i..i + |tag|] == tag && IsDigit(s[i + |tag|])
  }

  /** The leftmost place the pattern matches. */
  predicate FirstTagAt(s: string, tag: string, i: int) {
    TagAt(s, tag, i) && forall j :: 0 <= j < i ==> !TagAt(s, tag, j)
  }

  /** `d` is what `\d{1,limit}` consumes at `start`: digits taken from `s`,
      as many as follow, but at most `limit`. */
  predicate MaximalRun(s: string, start: nat, d: string, limit: nat) {
    |d| <= limit && start + |d| <= |s| && s[start..start + |d|] == d && AllDigits(d)
    && (start + |d| == |s| || |d| == limit || !IsDigit(s[start + |d|]))
  }

  /** The digits `\d{1,10}` consumes after a match. */
  function DigitRun(s: string, start: nat, limit: nat): (r: string)
    requires start <= |s|
    ensures MaximalRun(s, start, r, limit)
    decreases limit
  {
    if limit == 0 || start == |s| || !IsDigit(s[start]) then []
    else [s[start]] + DigitRun(s, start + 1, limit - 1)
  }

  /** There is only one maximal run at a position. */
  lemma DigitRunUnique(s: string, start: nat, d: string, limit: nat)
    requires start <= |s| && MaximalRun(s, start, d, limit)
    ensures DigitRun(s, start, limit) == d
  {
    var r := DigitRun(s, start, limit);
    forall k | start <= k < start + |d|
      ensures IsDigit(s[k])
    {
      assert s[start..start + |d|][k - start] == s[k];
    }
    forall k | start <= k < start + |r|
      ensures IsDigit(s[k])
    {
      assert s[start..start + |r|][k - start] == s[k];
    }
    assert |r| == |d|;
  }

  /** Scans for the first match position at or after `from`. */
  function FindTag(s: string, tag: string, from: nat): (r: Option<nat>)
    ensures r.Some? ==> from <= r.value && TagAt(s, tag, r.value)
                        && forall j :: from <= j < r.value ==> !TagAt(s, tag, j)
    ensures r.None? ==> forall j :: from <= j ==> !TagAt(s, tag, j)
    decreases |s| - from
  {
    if from >= |s| then None
    else if TagAt(s, tag, from) then Some(from)
    else FindTag(s, tag, from + 1)
  }

  /** `re.findall('<tag>(\d{1,10})', s)[0]`: the digits after the
      leftmost match; IndexError when the pattern never matches. */
  function FirstTagged(s: string, tag: string): (r: Result<string>)
    ensures r.Raise? <==> forall i :: !TagAt(s, tag, i)
    ensures r.Raise? ==> r.error == IndexError
    ensures r.Ok? ==> 1 <= |r.value| <= 10 && AllDigits(r.value)
  {
    match FindTag(s, tag, 0)
    case None => Raise(IndexError)
    case Some(i) =>
      var run := DigitRun(s, i + |tag|, 10);
      assert |run| >= 1 by {
        assert IsDigit(s[i + |tag|]);
      }
      Ok(run)
  }

  /** The scan stops at the leftmost match. */
  lemma FindTagFindsFirst(s: string, tag: string, i: nat)
    requires FirstTagAt(s, tag, i)
    ensures FindTag(s, tag, 0) == Some(i)
  {
    var f := FindTag(s, tag, 0);
    assert f.Some?;
    assert !(f.value < i) && !(i < f.value);
  }

  /** The capture is the digit run after the leftmost match. */
  lemma TaggedRun(s: string, tag: string, i: nat)
    requires FirstTagAt(s, tag, i)
    ensures i + |tag| <= |s| && FirstTagged(s, tag) == Ok(DigitRun(s, i + |tag|, 10))
  {
    FindTagFindsFirst(s, tag, i);
  }

  /** The captured digits are exactly the maximal run after the leftmost
      match: a leftmost match with its run determines the result, and every
      result comes from one. */
  lemma FirstTaggedIsLeftmostRun(s: string, tag: string, i: nat, d: string)
    requires FirstTagAt(s, tag, i)
    ensures FirstTagged(s, tag) == Ok(d) <==> MaximalRun(s, i + |tag|, d, 10)
  {
    TaggedRun(s, tag, i);
    if MaximalRun(s, i + |tag|, d, 10) {
      DigitRunUnique(s, i + |tag|, d, 10);
    }
  }

  /** An optical head's and a controller's serial number, as digit text. */
  datatype Serials = Serials(sn: string, cn: string)

  /** `GetDeviceSNCN`: the first serial after "SN" and the first after "CN". */
  function DeviceSNCN(id: string): (r: Result<Serials>)
    ensures r.Ok? <==> FirstTagged(id, "SN").Ok? && FirstTagged(id, "CN").Ok?
    ensures r.Raise? ==> r.error == IndexError
    ensures r.Ok? ==> r.value == Serials(FirstTagged(id, "SN").value, FirstTagged(id, "CN").value)
  {
    var sn :- FirstTagged(id, "SN");
    var cn :- FirstTagged(id, "CN");
    Ok(Serials(sn, cn))
  }

  /** "SN12-CN345" yields the serials "12" and "345". */
  lemma SerialPairExample()
    ensures DeviceSNCN("SN12-CN345") == Ok(Serials("12", "345"))
  {
    ExampleSerials("SN12-CN345", "12", "345");
  }

  /** A digit run is cut after ten digits. */
  lemma LongSerialExample()
    ensures FirstTagged("SN123456789012", "SN") == Ok("1234567890")
  {
    var t := "SN123456789012";
    assert t[0..2] == "SN" && t[2..12] == "1234567890";
    SerialAfterTag(t, "SN", 0, "1234567890");
  }

  /** An ID without "CN" raises IndexError. */
  lemma MissingControllerExample()
    ensures DeviceSNCN("SN12") == Raise(IndexError)
  {
    var u := "SN12";
    assert u[0] == 'S' && u[1] == 'N' && u[2] == '1' && u[3] == '2';
    NoTagBefore(u, "CN", 4);
  }

  /** Serial numbers from this one on belong to heads calibrated for one
      particular controller. */
  const MatchedPairsFrom := 212254

  /** `for s in IDString: ... = parse(s)`: every ID is parsed, in order,
      and the first that fails aborts the loop with its exception. */
  function ParseEach<T>(ids: seq<string>, parse: string -> Result<T>): (r: Result<seq<T>>)
    ensures r.Ok? <==> forall k :: 0 <= k < |ids| ==> parse(ids[k]).Ok?
    ensures r.Ok? ==> |r.value| == |ids|
                      && forall k :: 0 <= k < |ids| ==> r.value[k] == parse(ids[k]).value
    ensures r.Raise? ==> exists k :: 0 <= k < |ids| && parse(ids[k]) == Raise(r.error)
                                     && forall j :: 0 <= j < k ==> parse(ids[j]).Ok?
  {
    if ids == [] then Ok([])
    else
      var front := ids[..|ids| - 1];
      assert forall k :: 0 <= k < |front| ==> front[k] == ids[k];
      var done :- ParseEach(front, parse);
      var last :- parse(ids[|ids| - 1]);
      Ok(done + [last])
  }

  /** The mismatch test in `CommonFunc`: it compares the pair parsed from
      the last ID only; with no ID at all `SN` was never bound. */
  function MismatchWarning(ids: seq<string>): (r: Result<bool>)
    ensures r.Ok? <==> |ids| > 0 && forall k :: 0 <= k < |ids| ==> DeviceSNCN(ids[k]).Ok?
    ensures r.Raise? ==> (r.error == NameError <==> ids == [])
    ensures r.Ok? ==> (r.value <==> var last := DeviceSNCN(ids[|ids| - 1]).value;
                                    Value(last.sn) >= MatchedPairsFrom && Value(last.sn) != Value(last.cn))
  {
    var pairs :- ParseEach(ids, DeviceSNCN);
    if pairs == [] then Raise(NameError)
    else
      var last := pairs[|pairs| - 1];
      assert last == DeviceSNCN(ids[|ids| - 1]).value;
      Ok(Value(last.sn) >= MatchedPairsFrom && Value(last.sn) != Value(last.cn))
  }

  /** Only the last ID decides: lists that parse completely and end in the
      same ID give the same verdict, whatever comes before. */
  lemma LastIdDecides(a: seq<string>, b: seq<string>)
    requires a != [] && b != [] && a[|a| - 1] == b[|b| - 1]
    ensures MismatchWarning(a).Ok? && MismatchWarning(b).Ok? ==> MismatchWarning(a) == MismatchWarning(b)
  {
  }

  /** For a single well-formed ID the warning is the numeric comparison
      of its two serials. */
  lemma SingleIdWarning(sn: string, cn: string)
    requires 1 <= |sn| <= 10 && AllDigits(sn) && 1 <= |cn| <= 10 && AllDigits(cn)
    ensures MismatchWarning(["SN" + sn + "-CN" + cn])
            == Ok(Value(sn) >= MatchedPairsFrom && Value(sn) != Value(cn))
  {
    ExampleSerials("SN" + sn + "-CN" + cn, sn, cn);
  }

  /** Serials compare as numbers: a controller serial that spells the
      head's with a leading zero does not trigger the warning. */
  lemma LeadingZeroDoesNotWarn(sn: string)
    requires 1 <= |sn| <= 9 && AllDigits(sn)
    ensures MismatchWarning(["SN" + sn + "-CN0" + sn]) == Ok(false)
  {
    LeadingZero(sn);
    assert "SN" + sn + "-CN0" + sn == "SN" + sn + "-CN" + (['0'] + sn);
    SingleIdWarning(sn, ['0'] + sn);
  }

  /** With no ID the loop never binds `SN`. */
  lemma NoIdExample()
    ensures MismatchWarning([]) == Raise(NameError)
  {
  }

  /** An ID of the shape `SN<digits>-CN<digits>` parses to its two digit runs. */
  lemma ExampleSerials(id: string, sn: string, cn: string)
    requires 1 <= |sn| <= 10 && AllDigits(sn) && 1 <= |cn| <= 10 && AllDigits(cn)
    requires id == "SN" + sn + "-CN" + cn
    ensures DeviceSNCN(id) == Ok(Serials(sn, cn))
  {
    IdLayout(id, sn, cn);
    HeadSerial(id, sn);
    ControllerSerial(id, sn, cn);
  }

  /** The head serial of an ID that starts `SN<sn>-`. */
  lemma HeadSerial(id: string, sn: string)
    requires 1 <= |sn| <= 10 && AllDigits(sn) && |sn| + 2 < |id|
    requires id[..2] == "SN" && id[2..|sn| + 2] == sn && id[|sn| + 2] == '-'
    ensures FirstTagged(id, "SN") == Ok(sn)
  {
    SerialAfterTag(id, "SN", 0, sn);
  }

  /** The controller serial of an ID laid out as `SN<sn>-CN<cn>`. */
  lemma ControllerSerial(id: string, sn: string, cn: string)
    requires AllDigits(sn) && 1 <= |cn| <= 10 && AllDigits(cn)
    requires |id| == |sn| + |cn| + 5
    requires id[0] == 'S' && id[1] == 'N' && id[2..|sn| + 2] == sn && id[|sn| + 2] == '-'
    requires id[|sn| + 3..|sn| + 5] == "CN" && id[|sn| + 5..] == cn
    ensures FirstTagged(id, "CN") == Ok(cn)
  {
    NoControllerTagInHead(id, sn);
    SerialAfterTag(id, "CN", |sn| + 3, cn);
  }

  /** `SN<digits>-` holds no 'C'. */
  lemma NoControllerTagInHead(id: string, sn: string)
    requires AllDigits(sn) && |sn| + 3 <= |id|
    requires id[0] == 'S' && id[1] == 'N' && id[2..|sn| + 2] == sn && id[|sn| + 2] == '-'
    ensures forall j :: 0 <= j < |sn| + 3 ==> id[j] != 'C'
  {
    forall j | 2 <= j < |sn| + 2
      ensures id[j] != 'C'
    {
      assert id[2..|sn| + 2][j - 2] == id[j];
    }
  }

  /** Where the parts of `SN<sn>-CN<cn>` sit. */
  lemma IdLayout(id: string, sn: string, cn: string)
    requires id == "SN" + sn + "-CN" + cn
    ensures |id| == |sn| + |cn| + 5
    ensures id[..2] == "SN" && id[0] == 'S' && id[1] == 'N'
    ensures id[2..|sn| + 2] == sn && id[|sn| + 2] == '-'
    ensures id[|sn| + 3..|sn| + 5] == "CN" && id[|sn| + 3] == 'C'
    ensures id[|sn| + 5..] == cn
  {
    var head := "SN" + sn;
    var tail := "-CN" + cn;
    assert id == head + tail;
    assert id[..|head|] == head && id[|head|..] == tail;
    assert head[..2] == "SN" && head[2..] == sn;
    assert tail[1..3] == "CN" && tail[3..] == cn;
  }

  /** A tag cannot start where its first letter is absent. */
  lemma NoTagBefore(s: string, tag: string, c: nat)
    requires |tag| > 0 && c <= |s|
    requires forall j :: 0 <= j < c ==> s[j] != tag[0]
    ensures forall j :: 0 <= j < c ==> !TagAt(s, tag, j)
  {
    forall j | 0 <= j < c
      ensures !TagAt(s, tag, j)
    {
      assert j < |s| ==> s[j] != tag[0];
    }
  }

  /** A tag whose first letter appears nowhere before it, followed by at most ten digits that end
      the ID or stop before a non-digit, yields exactly those digits. */
  lemma SerialAfterTag(id: string, tag: string, i: nat, digits: string)
    requires |tag| > 0 && 1 <= |digits| <= 10 && AllDigits(digits)
    requires i + |tag| + |digits| <= |id|
    requires id[i..i + |tag|] == tag && id[i + |tag|..i + |tag| + |digits|] == digits
    requires i + |tag| + |digits| == |id| || |digits| == 10 || !IsDigit(id[i + |tag| + |digits|])
    requires forall j :: 0 <= j < i ==> id[j] != tag[0]
    ensures FirstTagged(id, tag) == Ok(digits)
  {
    NoTagBefore(id, tag, i);
    assert id[i + |tag|] == digits[0];
    assert FirstTagAt(id, tag, i);
    FirstTaggedIsLeftmostRun(id, tag, i, digits);
  }

  // ---------------------------------------------------------------------
  // Bit-mask decoding

  /** `bin(n)[2:]`: binary digits, most significant first; "0" for zero. */
  function BinaryDigits(n: nat): (r: string)
    ensures |r| >= 1
    ensures forall k :: 0 <= k < |r| ==> r[k] == '0' || r[k] == '1'
    ensures r[0] == '1' <==> n > 0
    ensures n == 0 ==> r == "0"
    decreases n
  {
    if n < 2 then [if n == 1 then '1' else '0']
    else BinaryDigits(n / 2) + [if n % 2 == 1 then '1' else '0']
  }

  /** `s[::-1]`. */
  function Reverse(s: string): (r: string)
    ensures |r| == |s|
    ensures forall k :: 0 <= k < |s| ==> r[k] == s[|s| - 1 - k]
  {
    if s == [] then [] else Reverse(s[1..]) + [s[0]]
  }

  /** Bit `t` of `n`, counted from the least significant bit, by halving. */
  predicate Bit(n: nat, t: nat)
    decreases t
  {
    if t == 0 then n % 2 == 1 else Bit(n / 2, t - 1)
  }

  /** Zero has no bit set. */
  lemma {:induction false} NoBitOfZero(t: nat)
    ensures !Bit(0, t)
  {
    if t > 0 {
      NoBitOfZero(t - 1);
    }
  }

  /** Reading the binary string backwards, position `t` holds bit `t`; no
      bit past the string's end is set. */
  lemma {:induction false} ReversedBinaryIsBits(n: nat, t: nat)
    ensures t < |BinaryDigits(n)| ==> (Reverse(BinaryDigits(n))[t] == '1' <==> Bit(n, t))
    ensures t >= |BinaryDigits(n)| ==> !Bit(n, t)
    decreases n
  {
    var b := BinaryDigits(n);
    if n < 2 {
      if t > 0 {
        NoBitOfZero(t - 1);
      }
    } else if t > 0 {
      ReversedBinaryIsBits(n / 2, t - 1);
      var h := BinaryDigits(n / 2);
      if t < |b| {
        assert b[|b| - 1 - t] == h[|h| - 1 - (t - 1)];
        assert Reverse(h)[t - 1] == h[|h| - 1 - (t - 1)];
      }
    }
  }

  /** The positions below `hi` whose bit is set and that have a name in
      `keys`, in ascending order: the reference the decoder is held to. */
  function SelectedBits(n: nat, keys: set<int>, hi: int): (r: seq<nat>)
    ensures forall i :: 0 <= i < |r| ==> r[i] < hi && r[i] in keys
    decreases hi
  {
    if hi <= 0 then []
    else
      var t := hi - 1;
      SelectedBits(n, keys, t) + (if Bit(n, t) && t in keys then [t] else [])
  }

  /** The reference selects exactly the named positions below `hi` whose
      bit is set, each once, in ascending order. */
  lemma {:induction false} SelectedBitsMembers(n: nat, keys: set<int>, hi: int)
    ensures forall t :: t in SelectedBits(n, keys, hi) <==> 0 <= t < hi && Bit(n, t) && t in keys
    ensures forall i, j :: 0 <= i < j < |SelectedBits(n, keys, hi)| ==>
              SelectedBits(n, keys, hi)[i] < SelectedBits(n, keys, hi)[j]
    decreases hi
  {
    if hi > 0 {
      SelectedBitsMembers(n, keys, hi - 1);
    }
  }

  /** The names of a list of positions, in the same order. */
  function Names(dict: map<int, string>, positions: seq<nat>): (r: seq<string>)
    requires forall i :: 0 <= i < |positions| ==> positions[i] in dict
    ensures |r| == |positions|
    ensures forall i :: 0 <= i < |r| ==> r[i] == dict[positions[i]]
  {
    if positions == [] then []
    else Names(dict, positions[..|positions| - 1]) + [dict[positions[|positions| - 1]]]
  }

  /** Moving the scan one position up adds that position when it is kept. */
  lemma SelectedBitsStep(n: nat, keys: set<int>, t: nat, maxLength: int)
    ensures t < maxLength && Bit(n, t) && t in keys
            ==> SelectedBits(n, keys, Min(t + 1, maxLength)) == SelectedBits(n, keys, Min(t, maxLength)) + [t]
    ensures !(t < maxLength && Bit(n, t) && t in keys)
            ==> SelectedBits(n, keys, Min(t + 1, maxLength)) == SelectedBits(n, keys, Min(t, maxLength))
  {
    if t < maxLength {
      assert Min(t + 1, maxLength) == t + 1;
    }
  }

  /** Naming one more position appends its name. */
  lemma NamesAppend(dict: map<int, string>, positions: seq<nat>, t: nat)
    requires forall i :: 0 <= i < |positions| ==> positions[i] in dict
    requires t in dict
    ensures Names(dict, positions + [t]) == Names(dict, positions) + [dict[t]]
  {
    assert (positions + [t])[..|positions|] == positions;
  }

  /** One step of the decoder's scan: position `t` contributes its name
      exactly when it is below the bound, has a name and reads '1'. */
  lemma ScanStep(n: nat, reversed: string, dict: map<int, string>, maxLength: int, t: nat)
    requires reversed == Reverse(BinaryDigits(n)) && t < |reversed|
    ensures Names(dict, SelectedBits(n, dict.Keys, Min(t + 1, maxLength)))
            == Names(dict, SelectedBits(n, dict.Keys, Min(t, maxLength)))
               + (if t < maxLength && t in dict && reversed[t] == '1' then [dict[t]] else [])
  {
    ReversedBinaryIsBits(n, t);
    SelectedBitsStep(n, dict.Keys, t, maxLength);
    if t < maxLength && t in dict && Bit(n, t) {
      NamesAppend(dict, SelectedBits(n, dict.Keys, Min(t, maxLength)), t);
    }
  }

  /** The names the decoder's loop has collected after looking at the
      first `t` positions of the reversed binary string. */
  function Scanned(reversed: string, dict: map<int, string>, maxLength: int, t: nat): seq<string>
    requires t <= |reversed|
  {
    if t == 0 then []
    else
      var p := t - 1;
      Scanned(reversed, dict, maxLength, p)
      + (if p < maxLength && p in dict && reversed[p] == '1' then [dict[p]] else [])
  }

  /** After `t` steps the scan holds the names of the kept positions below `t`. */
  lemma {:induction false} ScanPrefix(n: nat, dict: map<int, string>, maxLength: int, t: nat)
    requires t <= |BinaryDigits(n)|
    ensures Scanned(Reverse(BinaryDigits(n)), dict, maxLength, t)
            == Names(dict, SelectedBits(n, dict.Keys, Min(t, maxLength)))
  {
    if t > 0 {
      var reversed := Reverse(BinaryDigits(n));
      var p := t - 1;
      var step := if p < maxLength && p in dict && reversed[p] == '1' then [dict[p]] else [];
      assert Scanned(reversed, dict, maxLength, t) == Scanned(reversed, dict, maxLength, p) + step;
      ScanPrefix(n, dict, maxLength, p);
      ScanStep(n, reversed, dict, maxLength, p);
    }
  }

  /** The whole scan selects exactly the reference's positions. */
  lemma ScanIsSelection(n: nat, dict: map<int, string>, maxLength: int)
    ensures Scanned(Reverse(BinaryDigits(n)), dict, maxLength, |BinaryDigits(n)|)
            == Names(dict, SelectedBits(n, dict.Keys, maxLength))
  {
    ScanPrefix(n, dict, maxLength, |BinaryDigits(n)|);
    if maxLength >= |BinaryDigits(n)| {
      SelectedBitsSaturate(n, dict.Keys, maxLength);
    }
  }

  /** Raising the bound past the highest set bit selects nothing more. */
  lemma {:induction false} SelectedBitsSaturate(n: nat, keys: set<int>, hi: int)
    requires hi >= |BinaryDigits(n)|
    ensures SelectedBits(n, keys, hi) == SelectedBits(n, keys, |BinaryDigits(n)|)
    decreases hi
  {
    if hi > |BinaryDigits(n)| {
      ReversedBinaryIsBits(n, hi - 1);
      SelectedBitsSaturate(n, keys, hi - 1);
    }
  }

  const DefaultMaxLength := 4

  /** `GetDeviceOpticalHeadTypeNumber`: the names of the set bits of the
      character's code, scanning the reversed binary string upward and
      keeping only positions below `maxLength` that have a name. Anything
      but a single character makes `ord()` fail, which the function
      re-raises as a bare Exception. */
  method OpticalHeadTypeNames(code: string, dict: map<int, string>, maxLength: int)
    returns (r: Result<seq<string>>)
    ensures r.Raise? <==> |code| != 1
    ensures r.Raise? ==> r.error == BareException
    ensures r.Ok? ==> r.value == Names(dict, SelectedBits(code[0] as int, dict.Keys, maxLength))
  {
    if |code| != 1 {
      return Raise(BareException);
    }
    var n: nat := code[0] as int;
    var binText := ['0', 'b'] + BinaryDigits(n);
    var reversed := Reverse(binText[2..]);
    assert binText[2..] == BinaryDigits(n);
    assert reversed == Reverse(BinaryDigits(n));
    var targets: seq<string> := [];
    var t := 0;
    while t < |reversed|
      invariant 0 <= t <= |reversed|
      invariant targets == Scanned(reversed, dict, maxLength, t)
    {
      if t < maxLength && t in dict && reversed[t] == '1' {
        targets := targets + [dict[t]];
      }
      t := t + 1;
    }
    ScanIsSelection(n, dict, maxLength);
    return Ok(targets);
  }

  /** The bandwidth-mode names the example passes in. */
  const BandwidthModes: map<int, string> := map[0 := "BLACK", 1 := "WIDE", 2 := "MEDIUM", 3 := "NARROW"]

  /** Code 10 (binary 1010) has bits 1 and 3 set: "WIDE", then "NARROW". */
  lemma BandwidthExample()
    ensures Names(BandwidthModes, SelectedBits(10, BandwidthModes.Keys, DefaultMaxLength)) == ["WIDE", "NARROW"]
  {
    assert Bit(10, 1) && Bit(10, 3) && !Bit(10, 0) && !Bit(10, 2);
    assert SelectedBits(10, BandwidthModes.Keys, DefaultMaxLength) == [1, 3];
  }

  /** A character with code 0 names nothing. */
  lemma {:induction false} ZeroCodeNamesNothing(keys: set<int>, maxLength: int)
    ensures SelectedBits(0, keys, maxLength) == []
  {
    SelectedBitsMembers(0, keys, maxLength);
    if |SelectedBits(0, keys, maxLength)| > 0 {
      var t := SelectedBits(0, keys, maxLength)[0];
      NoBitOfZero(t);
    }
  }
}

=== FILE: point_spectrum.dfy ===
/** Point mode of the spectrum viewer: the intensity of one pixel `(x, y)`
    on every slide of the stack, plotted against the wavelength axis.
    `x` is the row index and `y` the column index, as numpy reads them. */
module PointSpectrum {
  import opened Python
  import opened ImageStack

  /** `get_pixel_value(slide)`: `stack[slide][x][y]`, with Python's
      wrap-around for negative indices and IndexError for anything else
      outside the stack. */
  function PixelValue(stack: Stack, slide: int, x: int, y: int): (r: Result<int>)
    ensures r.Raise? ==> r.error == IndexError
    ensures 0 <= slide && 0 <= x && 0 <= y ==>
              (r.Ok? <==> slide < |stack| && x < |stack[slide]| && y < |stack[slide][x]|)
    ensures 0 <= slide && 0 <= x && 0 <= y && r.Ok? ==> r.value == stack[slide][x][y]
  {
    var s :- Index(|stack|, slide);
    var row :- Index(|stack[s]|, x);
    var col :- Index(|stack[s][row]|, y);
    Ok(stack[s][row][col])
  }

  /** Every slide of the stack has a pixel at `(x, y)`, for non-negative coordinates. */
  predicate HasPixel(stack: Stack, x: nat, y: nat) {
    forall i :: 0 <= i < |stack| ==> x < |stack[i]| && y < |stack[i][x]|
  }

  /** `build_array_pixel`: one value per slide, in slide order. */
  function Values(stack: Stack, x: int, y: int): (r: Result<seq<int>>)
    ensures r.Ok? <==> forall i :: 0 <= i < |stack| ==> PixelValue(stack, i, x, y).Ok?
    ensures r.Raise? ==> r.error == IndexError
    ensures r.Ok? ==> |r.value| == |stack|
                      && forall i :: 0 <= i < |stack| ==> r.value[i] == PixelValue(stack, i, x, y).value
  {
    var valueOf := (i: nat) => PixelValue(stack, i, x, y);
    assert forall i: nat :: valueOf(i) == PixelValue(stack, i, x, y);
    BuildArray(|stack|, valueOf)
  }

  /** `show_image`: the slide values paired index-wise with
      `wavelength_min .. wavelength_max`. */
  function Spectrum(stack: Stack, x: int, y: int, wavelengthMin: int, wavelengthMax: int)
    : (r: Result<seq<(int, int)>>)
    ensures r.Ok? <==> (forall i :: 0 <= i < |stack| ==> PixelValue(stack, i, x, y).Ok?)
                       && |stack| == Max(wavelengthMax - wavelengthMin + 1, 0)
    ensures r.Raise? ==> r.error == IndexError || r.error == ValueError
    ensures r.Ok? ==> |r.value| == |stack|
                      && forall i :: 0 <= i < |stack| ==>
                           r.value[i] == (wavelengthMin + i, PixelValue(stack, i, x, y).value)
  {
    var ys :- Values(stack, x, y);
    Plot(Axis(wavelengthMin, wavelengthMax), ys)
  }

  /** Point extraction applies no transformation: with in-range,
      non-negative coordinates the list is exactly the raw pixel of each slide. */
  lemma ValuesAreRawPixels(stack: Stack, x: nat, y: nat)
    requires HasPixel(stack, x, y)
    ensures Values(stack, x, y).Ok?
    ensures Values(stack, x, y).value == seq(|stack|, i requires 0 <= i < |stack| => stack[i][x][y])
  {
    var r := Values(stack, x, y);
    forall i | 0 <= i < |stack|
      ensures PixelValue(stack, i, x, y).Ok?
    {
      assert x < |stack[i]| && y < |stack[i][x]|;
    }
  }

  /** A coordinate missing from any one slide makes the whole list raise
      IndexError instead of returning a partial spectrum. */
  lemma MissingPixelRaises(stack: Stack, x: nat, y: nat, slide: nat)
    requires slide < |stack|
    requires x >= |stack[slide]| || y >= |stack[slide][x]|
    ensures Values(stack, x, y) == Raise(IndexError)
  {
    assert PixelValue(stack, slide, x, y).Raise?;
  }

  /** A wavelength range of the wrong length cannot be plotted against
      the stack: matplotlib raises ValueError. */
  lemma AxisLengthMismatchRaises(stack: Stack, x: nat, y: nat, wavelengthMin: int, wavelengthMax: int)
    requires HasPixel(stack, x, y)
    requires |stack| != Max(wavelengthMax - wavelengthMin + 1, 0)
    ensures Spectrum(stack, x, y, wavelengthMin, wavelengthMax) == Raise(ValueError)
  {
    ValuesAreRawPixels(stack, x, y);
  }

  /** The spectrum is determined by the slides alone: two stacks that
      agree on pixel `(x, y)` of every slide give the same spectrum, however
      the rest of each frame differs. */
  lemma SpectrumSeesOnlyThePixel(a: Stack, b: Stack, x: nat, y: nat, wavelengthMin: int, wavelengthMax: int)
    requires |a| == |b| && HasPixel(a, x, y) && HasPixel(b, x, y)
    requires forall i :: 0 <= i < |a| ==> a[i][x][y] == b[i][x][y]
    ensures Spectrum(a, x, y, wavelengthMin, wavelengthMax) == Spectrum(b, x, y, wavelengthMin, wavelengthMax)
  {
    ValuesAreRawPixels(a, x, y);
    ValuesAreRawPixels(b, x, y);
    var va := Values(a, x, y).value;
    var vb := Values(b, x, y).value;
    assert forall i :: 0 <= i < |va| ==> va[i] == vb[i];
    assert va == vb;
  }

  /** A uniform frame of the given size. */
  function Flat(rows: nat, cols: nat, v: int): (m: Frame)
    ensures |m| == rows && forall i :: 0 <= i < rows ==> |m[i]| == cols
    ensures forall i, j :: 0 <= i < rows && 0 <= j < cols ==> m[i][j] == v
  {
    seq(rows, _ => seq(cols, _ => v))
  }

  /** Five 11x11 slides taken at 500..504 nm whose pixel (10, 10) reads
      1, 2, 3, 4, 5 give the spectrum (500, 1) .. (504, 5). */
  lemma FiveSlideSpectrum()
    ensures Spectrum([Flat(11, 11, 1), Flat(11, 11, 2), Flat(11, 11, 3), Flat(11, 11, 4), Flat(11, 11, 5)],
                     10, 10, 500, 504)
            == Ok([(500, 1), (501, 2), (502, 3), (503, 4), (504, 5)])
  {
    var stack := [Flat(11, 11, 1), Flat(11, 11, 2), Flat(11, 11, 3), Flat(11, 11, 4), Flat(11, 11, 5)];
    ValuesAreRawPixels(stack, 10, 10);
    var r := Spectrum(stack, 10, 10, 500, 504);
    assert r.Ok?;
    assert r.value == [(500, 1), (501, 2), (502, 3), (503, 4), (504, 5)];
  }
}

=== FILE: python.dfy ===
/** The parts of Python's runtime that the modelled scripts lean on:
    the exceptions they can raise, subscripts with negative indices,
    slices with out-of-range bounds, and `range`. */
module Python {

  /** The exceptions the modelled code can raise. */
  datatype Exception =
    | IndexError   // subscript outside the sequence, or `[0]` of an empty match list
    | ValueError   // int()/float() of bad text, plot of unequal lengths, a rejected region
    | NameError    // a local read before any assignment
    | BareException  // `raise Exception(...)`, as a handler that re-raises does

  /** A computation that returns a value or raises. */
  datatype Result<+T> = Ok(value: T) | Raise(error: Exception) {
    predicate IsFailure() {
      Raise?
    }

    function PropagateFailure<U>(): Result<U>
      requires Raise?
    {
      Raise(error)
    }

    function Extract(): T
      requires Ok?
    {
      value
    }
  }

  datatype Option<+T> = None | Some(value: T)

  function Min(a: int, b: int): int {
    if a <= b then a else b
  }

  function Max(a: int, b: int): int {
    if a <= b then b else a
  }

  /** The position `s[i]` denotes in a sequence of length `n`: a negative
      `i` counts from the end, anything else outside the sequence raises. */
  function Index(n: nat, i: int): (r: Result<nat>)
    ensures r.Ok? <==> -(n as int) <= i < n
    ensures r.Ok? ==> r.value < n && (r.value == i || r.value == i + n)
    ensures r.Raise? ==> r.error == IndexError
  {
    if 0 <= i < n then Ok(i)
    else if -(n as int) <= i < 0 then Ok(i + n)
    else Raise(IndexError)
  }

  /** Where a slice bound lands in a sequence of length `n`: a negative
      bound counts from the end, and either kind is clamped into `0..n`. */
  function SliceBound(n: nat, b: int): (r: nat)
    ensures r <= n
    ensures 0 <= b ==> r == Min(b, n)
  {
    if b < 0 then Max(b + n, 0) else Min(b, n)
  }

  /** `s[lo:hi]`: never raises; a bound past the end is clamped and a
      reversed pair of bounds gives the empty sequence. */
  function Slice<T>(s: seq<T>, lo: int, hi: int): (r: seq<T>)
    ensures |r| == Max(SliceBound(|s|, hi) - SliceBound(|s|, lo), 0)
    ensures forall k :: 0 <= k < |r| ==> r[k] == s[SliceBound(|s|, lo) + k]
    ensures 0 <= lo <= hi <= |s| ==> r == s[lo..hi]
    ensures 0 <= hi <= lo ==> r == []
  {
    var a := SliceBound(|s|, lo);
    var b := SliceBound(|s|, hi);
    if a < b then s[a..b] else []
  }

  /** `list(range(lo, hi))`, built the way Python enumerates it. */
  function Range(lo: int, hi: int): (r: seq<int>)
    ensures |r| == Max(hi - lo, 0)
    ensures forall k :: 0 <= k < |r| ==> r[k] == lo + k
    decreases hi - lo
  {
    if lo >= hi then [] else [lo] + Range(lo + 1, hi)
  }

  /** A range lists its numbers in strictly ascending order, each once. */
  lemma RangeStrictlyAscending(lo: int, hi: int)
    ensures forall j, k :: 0 <= j < k < |Range(lo, hi)| ==> Range(lo, hi)[j] < Range(lo, hi)[k]
    ensures forall v :: v in Range(lo, hi) <==> lo <= v < hi
  {
    var r := Range(lo, hi);
    forall v | lo <= v < hi
      ensures v in r
    {
      assert r[v - lo] == v;
    }
  }
}

=== FILE: workflow.dfy ===
/** How the pieces fit together: the capture form fixes the wavelength
    list, the synchroniser stores one slide per wavelength, and the
    viewers, given the same bounds, plot each slide at the wavelength it was
    taken at. */
module Workflow {
  import opened Python
  import opened ImageStack
  import opened CaptureRun
  import PointSpectrum
  import AreaSpectrum

  /** The list the form hands the synchroniser and the axis the viewers
      draw are the same list. */
  lemma WavelengthListIsAxis(lo: int, hi: int)
    ensures CaptureWavelengths(lo, hi) == Axis(lo, hi)
  {
    var ws := CaptureWavelengths(lo, hi);
    var xs := Axis(lo, hi);
    assert |ws| == |xs|;
    assert forall i :: 0 <= i < |ws| ==> ws[i] == xs[i];
  }

  /** A stack captured for an accepted form, one slide per requested
      wavelength, opened in point mode with the form's bounds: every pixel
      the slides share yields a spectrum, and slide `i` is plotted at the
      `i`-th requested wavelength. */
  lemma CapturedStackPlotsAtItsWavelengths(p: NumberSyntax, form: Form, now: DateTime,
                                           stack: Stack, x: nat, y: nat)
    requires ValidDateTime(now)
    requires RunScript(p, form, now).Ok? && RunScript(p, form, now).value.request.Some?
    requires |stack| == |RunScript(p, form, now).value.request.value.wavelengths|
    requires PointSpectrum.HasPixel(stack, x, y)
    ensures var ws := RunScript(p, form, now).value.request.value.wavelengths;
            var r := PointSpectrum.Spectrum(stack, x, y, p.intValue(form.minText).value,
                                            p.intValue(form.maxText).value);
            && r.Ok? && |r.value| == |ws|
            && forall i :: 0 <= i < |ws| ==> r.value[i] == (ws[i], stack[i][x][y])
  {
    var lo := p.intValue(form.minText).value;
    var hi := p.intValue(form.maxText).value;
    assert RunScript(p, form, now).value.request.value.wavelengths == CaptureWavelengths(lo, hi);
    StackPlotsAtWavelengths(stack, x, y, lo, hi);
  }

  /** A stack with one slide per wavelength of `lo..hi`, in point mode. */
  lemma StackPlotsAtWavelengths(stack: Stack, x: nat, y: nat, lo: int, hi: int)
    requires |stack| == |CaptureWavelengths(lo, hi)|
    requires PointSpectrum.HasPixel(stack, x, y)
    ensures var ws := CaptureWavelengths(lo, hi);
            var r := PointSpectrum.Spectrum(stack, x, y, lo, hi);
            && r.Ok? && |r.value| == |ws|
            && forall i :: 0 <= i < |ws| ==> r.value[i] == (ws[i], stack[i][x][y])
  {
    PointSpectrum.ValuesAreRawPixels(stack, x, y);
  }

  /** A 1x1 area spectrum is the point spectrum of that pixel, as exact
      averages: both raise or neither does, and they agree point by point. */
  lemma SinglePixelAreaIsPoint(stack: Stack, x: nat, y: nat, wavelengthMin: int, wavelengthMax: int)
    ensures var area := AreaSpectrum.Spectrum(stack, AreaSpectrum.Corner(x, y), AreaSpectrum.Corner(x, y),
                                              wavelengthMin, wavelengthMax);
            var point := PointSpectrum.Spectrum(stack, x, y, wavelengthMin, wavelengthMax);
            && (area.Ok? <==> point.Ok?)
            && (area.Ok? ==> |area.value| == |point.value|
                             && forall i :: 0 <= i < |area.value| ==>
                                  area.value[i].0 == point.value[i].0
                                  && area.value[i].1 == point.value[i].1 as real)
  {
    var corner := AreaSpectrum.Corner(x, y);
    forall i | 0 <= i < |stack|
      ensures AreaSpectrum.ValidRegion(stack[i], corner, corner) <==> PointSpectrum.PixelValue(stack, i, x, y).Ok?
    {
      if x < |stack[i]| {
        assert |stack[i][x]| == Cols(stack[i]);
      }
    }
    if PointSpectrum.HasPixel(stack, x, y) {
      forall i | 0 <= i < |stack|
        ensures AreaSpectrum.AreaValue(stack, i, corner, corner) == Ok(stack[i][x][y] as real)
      {
        assert |stack[i][x]| == Cols(stack[i]);
        AreaSpectrum.SinglePixelRegion(stack, i, corner);
      }
      PointSpectrum.ValuesAreRawPixels(stack, x, y);
    }
  }
}
